=== FILE: README.md ===
# Trade simulation engine — a Dafny model of its economic core

The engine simulates a world of settlements that produce, consume, price and
trade goods, one tick at a time. This project models the economic core in
`trade_logic.py` and proves properties of it:

- a settlement's capacity-bounded bulk storage and its ten-entry log;
- the production phase: recipes guarded by terrain, labor, wealth and input
  stock, tried over several shuffled passes, with rollback of a failed recipe;
- the consumption phase: the population eats into storage, jittered;
- the pricing phase: price from the supply/demand ratio, clamped to a band;
- trade discovery over every pair of settlements and every good, ranked by
  profit per unit with a stable sort;
- trade execution: greedy, capped per tick, checked against stock,
  affordability and the buyer's room;
- the tick itself, including the storage upkeep charge.

Every phase is a pure function or a method with real outputs. Settlements,
goods and the world are immutable datatypes. A settlement's storage is an
insertion-ordered association list, the shape of the Python dict it models.
Settlements are named by their position in the world's list.

The engine's randomness is an argument:

- one shuffled order of the producible goods per production pass per
  settlement, which must be a permutation of them;
- one consumption jitter factor per good per settlement, in [0.9, 1.1].

The price curve (`math.pow`) is an arbitrary function argument, so every
pricing property holds whatever curve is used. `PriceFallsWithSupply` adds the
assumption that the curve falls.

Modules, in dependency order:

| file | module | models |
|---|---|---|
| common.dfy | Common | Option, the 1e-6 tolerance, the 0.99 completion fraction, min/max/clamp |
| stock.dfy | Stocks | the ordered dict of goods to quantities |
| goods.dfy | Goods | goods, recipes, the catalogue |
| config.dfy | Config | simulation parameters with the engine's defaults |
| settlement.dfy | Settlements | `Settlement`: creation, log, storage operations |
| production.dfy | Production | `produce` |
| consumption.dfy | Consumption | `consume` |
| pricing.dfy | Pricing | `update_prices` |
| discovery.dfy | Discovery | `find_trade_opportunities` |
| world.dfy | WorldState | the world record and its total wealth |
| execution.dfy | Execution | `execute_trades` |
| simulation.dfy | Simulation | `simulation_step` and upkeep |

The two defects listed under "## Findings" are modelled twice: as written
(`Production.FireRecipeAsWritten`, `Execution.TradeAsWritten`) and corrected
(`Production.FireRecipe`, `Execution.Trade`). The production and trade
phases, and so the whole tick, run the corrected halves. The model's tick
is therefore the program with those two defects fixed. "## Left out" names
every member this applies to.

Other behaviour of the code that the model keeps and states:

- When a tick finds no trade opportunity, `execute_trades` is not called. The
  list of the trades "executed this tick" then still holds the previous
  tick's trades. `Simulation.Market` states this: with no opportunity the
  world is returned unchanged.
- A trade completes when the buyer stores at least 99% of the quantity. The
  seller gives up the whole quantity, and the buyer pays only for what it
  stored. Up to 1% of the goods in a trade can therefore vanish.
  `Execution.TradeCreatesNoGoods` states the inequality that remains true.
- The `removed_qty < trade_qty * 0.99` skip in `execute_trades` cannot fire,
  because the stock check has already passed (`Execution.FullRemoval`).

The user interface reads a settlement's `is_abandoned` flag
(ui_dynamic_pane.py:81) and the world's `migration_details_this_tick`
(ui_analysis_window.py:100). `trade_logic.py` never sets either, so the model
has neither abandonment nor migration.

## Model

| member | source | states |
|---|---|---|
| Common.Clamp | trade_logic.py:200 | the clamped price is never below the lower bound; it is at most the upper bound when the bounds are ordered; it equals the value when the value is inside the band and the bound it crossed otherwise |
| Common.ClampMonotone | trade_logic.py:200 | clamping keeps the order of two prices |
| Stocks.Put | trade_logic.py:82 | setting one good's amount changes only that good; the load changes by the difference; keys stay distinct and amounts non-negative |
| Stocks.Drop | trade_logic.py:92 | deleting a good's entry leaves every other good's amount; the load falls by the deleted amount; with distinct keys the good is gone and reads as zero |
| Stocks.AbsentIsZero | trade_logic.py:65 | a good with no entry reads as 0 |
| Stocks.GetWithinLoad | trade_logic.py:65-66 | in storage without negative amounts, any one good's amount is between 0 and the total load |
| Stocks.LoadNonNegative | trade_logic.py:66 | storage without negative amounts has a non-negative load |
| Goods.Producible | trade_logic.py:112 | a good is a production candidate exactly when it is producible and has a recipe |
| Settlements.Create | trade_logic.py:43-61 | a new settlement has empty storage and log, market level 1, full labor, the initial or default wealth, and the base capacity, multiplied for a city at or above the threshold; with non-negative rates it is valid |
| Settlements.CapacityGrowsWithPopulation | trade_logic.py:49-54 | with a city multiplier of at least 1, a larger population never gets less capacity, including across the city threshold |
| Settlements.AddLog | trade_logic.py:64 | the log keeps at most 10 entries; the new entry is last; the kept older entries are the newest ones, in order |
| Settlements.AddLogKeepsNewest | trade_logic.py:64 | after any number of entries are added one by one, the log holds exactly the 10 newest of all entries ever written, in order |
| Settlements.NewestOfNewest | trade_logic.py:64 | trimming the log before more entries are added gives the same log as trimming afterwards |
| Settlements.TotalStored | trade_logic.py:65 | a good with no entry reads as 0; in valid storage each good's amount lies between 0 and the load |
| Settlements.StorageLoad | trade_logic.py:66 | in valid storage the load lies between 0 and the capacity |
| Settlements.AddToStorage | trade_logic.py:68-85 | stores at most the request and at most the free room; stores nothing exactly when the room or the request is at most 1e-6; otherwise stores the request or the whole room; only that good changes, by the stored amount; the load stays within capacity |
| Settlements.RemoveFromStorage | trade_logic.py:87-93 | removes at most the request and at most what is held, and exactly the request when that much is held; what remains is the remainder, and an entry below 1e-6 is deleted; other goods are unchanged; amounts never go negative |
| Production.PutOutputs | trade_logic.py:142-147 | output storage changes only the outputs; when it succeeds each output rose by at least 99% and at most 100% of its amount |
| Production.Run | trade_logic.py:126-147 | the forward half of a recipe charges exactly its labor and wealth cost, touches only its inputs' and outputs' stock, and keeps a settlement with enough labor valid |
| Production.FireRecipe | trade_logic.py:117-158 | corrected behaviour, answering the Findings row for trade_logic.py:147-156: a recipe fires only when terrain, labor, wealth and every input allow it; it does fire when in addition every output is above 1e-6 and all outputs fit into the room free before the attempt; a fired recipe costs exactly its labor and wealth; a failed attempt leaves the settlement exactly as it was; other goods are untouched; validity is kept |
| Production.TakeInputs | trade_logic.py:130-141 | input removal changes only the inputs, keeps storage valid and never raises the load; when every input is in stock it succeeds and leaves each input at its remainder |
| Production.OutputsFit | trade_logic.py:142-147 | outputs above 1e-6 that fit into the free room are all stored, so the output stage succeeds |
| Production.RestInStock | trade_logic.py:130-141 | when every input is in stock, it still is for the remaining inputs after the first one is removed |
| Production.TakenFits | trade_logic.py:121-141 | when the guards hold, taking the inputs succeeds, keeps the settlement valid and leaves no more in storage than before |
| Production.RoomForOutputs | trade_logic.py:121-147 | when the guards hold and the outputs fit into the room free before the attempt, both stages of the attempt succeed |
| Production.RecipeEffect | trade_logic.py:121-147 | when the guards hold, input removal cannot fail; a fired recipe leaves each input at its remainder and raises each output by between 99% and 100% of its amount |
| Production.FireRecipeAsWritten | trade_logic.py:126-156 | the rollback as written fires exactly when the corrected attempt does, with the same result; a failed attempt restores labor and wealth; validity is kept for a sane recipe |
| Production.RollbackLosesInputs | trade_logic.py:147-156 | a concrete settlement and recipe for which the rollback as written fails the recipe and loses 5 units of input |
| Production.RunOrder | trade_logic.py:116-158 | a pass changes only storage, labor and wealth; with no recipe fired nothing changes; when the first good's recipe fires, the pass counts as having fired and, with sane recipes, costs at least that recipe's labor and wealth; with sane recipes, labor and wealth never rise and validity is kept |
| Production.ShuffledFromCatalog | trade_logic.py:112-115 | every good in a shuffled order comes from the catalogue |
| Production.RunPasses | trade_logic.py:110-159 | the passes never raise labor or wealth with a sane catalogue and keep them non-negative and the settlement valid; when the first recipe of the first pass fires, labor and wealth fall by at least its cost; a pass in which nothing fires ends production with the settlement unchanged |
| Production.Produce | trade_logic.py:108-159 | labor is refilled and never exceeds the maximum or drops below zero; wealth never rises or turns negative; validity is kept; when the first recipe of the first pass fires on the refilled settlement, labor ends at least its labor cost below the maximum and wealth at least its wealth cost below the start; with no passes or nothing producible only the labor refill happens |
| Production.ProduceIgnoresLeftoverLabor | trade_logic.py:109 | what production does does not depend on the labor left over from before |
| Consumption.ConsumeGood | trade_logic.py:167-181 | consumption of one good changes only that good, never raises it, and takes nothing of goods not eaten here; a stock that covers a demand above 0.01 is left at exactly stock minus demand (nothing when that is below 1e-6); a stock above 0.01 that falls short of the demand is emptied; nothing changes when the demand or the stock is at most 0.01; so it never takes more than the demand beyond a sub-1e-6 remainder |
| Consumption.ConsumeFrom | trade_logic.py:166-181 | consuming the catalogue changes only storage, touches no good outside the catalogue or not eaten here, never raises any amount, and keeps validity (how much it takes is stated by `Consumption.ConsumeBounds`) |
| Consumption.Consume | trade_logic.py:161-181 | the consumption phase changes only storage, leaves goods not eaten (iron ore, seed, bread outside a city, grain in a city) alone, never raises an amount, and keeps validity; with distinct ids each good loses at most its jittered demand, beyond which only a sub-1e-6 remainder goes, and each good eaten here is left at exactly stock minus demand when the demand is above 0.01 and covered, is emptied when its stock is above 0.01 but short of the demand, and is left alone when the demand or the stock is at most 0.01 |
| Consumption.ConsumeBounds | trade_logic.py:166-181 | with distinct ids, consuming the catalogue takes at most each good's jittered demand, beyond which only a sub-1e-6 remainder goes; each good eaten here is left at exactly stock minus demand when the demand is above 0.01 and covered, emptied when a stock above 0.01 falls short, and untouched when the demand or the stock is at most 0.01 |
| Consumption.ConsumeFromSkips | trade_logic.py:166 | a good not in the catalogue is not consumed |
| Consumption.ConsumptionBounded | trade_logic.py:174-181 | with distinct good ids, each good loses at most one jittered demand, or all of it only when less than 1e-6 more than the demand was there |
| Consumption.FirstMet | trade_logic.py:174-181 | the first good of the catalogue, when eaten here, is left at exactly stock minus demand when the demand is above 0.01 and covered, is emptied when its stock is above 0.01 but short, and is unchanged when demand or stock is at most 0.01, whatever the later goods do |
| Consumption.ConsumptionMeetsDemand | trade_logic.py:174-181 | with distinct good ids, every good eaten here is left at exactly stock minus its jittered demand when that demand is above 0.01 and covered (nothing when the rest is below 1e-6), is emptied when its stock is above 0.01 but short of the demand, and is unchanged when demand or stock is at most 0.01 |
| Pricing.LocalPrice | trade_logic.py:192-200 | a price is never below base times the minimum multiplier, never above base times the maximum when those are ordered, is the curve's price whenever that lies in the band, the lower bound when the curve is at or below it, and the upper bound when the curve is at or above it and the band is ordered |
| Pricing.PriceFallsWithSupply | trade_logic.py:192-200 | with a falling curve and a non-negative base value, holding more of a good never raises its price |
| Pricing.CurveFalls | trade_logic.py:192-199 | with a falling curve and a non-negative base value, holding more of a good never raises the unclamped curve price |
| Pricing.RatioRises | trade_logic.py:189-196 | the supply/demand ratio is positive and never falls when only storage grows |
| Pricing.PriceFrom | trade_logic.py:191-200 | every catalogue good gets a price; prices of other goods are kept |
| Pricing.PriceFromSetsLocal | trade_logic.py:191-200 | with distinct ids, each catalogue good's price is its own local price |
| Pricing.UpdatePrices | trade_logic.py:183-200 | only prices change; every catalogue good is priced; other goods' prices are kept |
| Pricing.PricesInBand | trade_logic.py:196-200 | with distinct ids, every price the phase sets is the good's local price and lies in its band |
| Discovery.Candidate | trade_logic.py:228-249 | an offer between two settlements is made exactly when both price the good, one beats the other by the threshold (the second as buyer first), profit and stock exceed 1e-6, and the buyer has wealth; any offer is sound: buyer price above seller price times threshold, profit = difference > 0, 0 < quantity ≤ 1 and ≤ seller stock |
| Discovery.PairScan | trade_logic.py:229-249 | every offer found between two settlements is sound |
| Discovery.RowScan | trade_logic.py:227-249 | every offer found from one settlement is sound |
| Discovery.Scan | trade_logic.py:226-249 | every offer found is sound |
| Discovery.PairScanExact | trade_logic.py:229-249 | the pair scan lists an offer exactly when comparing the pair for some good produces it |
| Discovery.RowScanExact | trade_logic.py:227-249 | the row scan lists an offer exactly when comparing the settlement with some later one for some good produces it |
| Discovery.ScanOnlyCandidates | trade_logic.py:226-249 | everything the scan lists comes from comparing some pair for some good |
| Discovery.ScanFindsAll | trade_logic.py:226-249 | everything that comparing some pair for some good produces is listed |
| Discovery.ScanExact | trade_logic.py:226-249 | the scan lists an offer exactly when comparing some pair for some good produces it |
| Discovery.Insert | trade_logic.py:250 | inserting adds exactly one element and nothing else |
| Discovery.InsertKeepsOrder | trade_logic.py:250 | inserting into a list sorted by profit keeps it sorted |
| Discovery.SortByProfit | trade_logic.py:250 | the sort is a permutation and puts the highest profit first |
| Discovery.InsertWithProfit | trade_logic.py:250 | insertion places the new element ahead of the equal-profit elements already there |
| Discovery.SortIsStable | trade_logic.py:250 | the sort keeps equal-profit opportunities in scan order |
| Discovery.FindOpportunities | trade_logic.py:222-251 | the result is sorted by profit, descending, is a permutation of the scan, and every opportunity is sound |
| Discovery.FindOpportunitiesExact | trade_logic.py:222-251 | an opportunity is listed exactly when comparing some pair i < j for some catalogue good produces it |
| Execution.TradeQty | trade_logic.py:263-271 | the tried quantity lies in [0.01, 1] and equals the offered quantity when that is in range |
| Execution.FullRemoval | trade_logic.py:275-279 | after the stock check passes, removal returns at least 99% of the quantity, so the short-removal skip never fires |
| Execution.Trade | trade_logic.py:263-301 | a trade goes through exactly when the buyer can pay and the seller holds the quantity, and the buyer has room for 99% of it; only storage, wealth and logs change; the two parties' wealth sum is conserved |
| Execution.TradeDelivers | trade_logic.py:273-293 | a completed trade stores the quantity or all the buyer's room (at least 99% of the quantity), takes the quantity from the seller, and moves exactly seller price times stored amount from buyer to seller |
| Execution.TradeFailsCleanly | trade_logic.py:294-301 | corrected behaviour, answering the Findings row for trade_logic.py:286, 294-299: a failed trade leaves both parties' storage and wealth as they were |
| Execution.TradeCreatesNoGoods | trade_logic.py:277-299 | the buyer gains at most what the seller loses of the good, and no other good moves |
| Execution.TradeKeepsValid | trade_logic.py:276-301 | a trade keeps both parties valid, storage within capacity included |
| Execution.BuyerStaysSolvent | trade_logic.py:273-289 | a buyer with non-negative wealth paying a non-negative price never goes into debt |
| Execution.TradeAsWritten | trade_logic.py:276-301 | the failure branch as written agrees with the corrected trade on whether a trade happens and on every completed trade |
| Execution.FailedTradeSteps | trade_logic.py:273-299 | the failure branch as written, worked through for one concrete seller and buyer: the buyer keeps the half unit it stored, and the seller gets the whole unit back |
| Execution.FailedTradeCreatesGoods | trade_logic.py:286-299 | a concrete seller and buyer for which the failure branch as written leaves 5.5 grain where there were 5 |
| Execution.TradeOutcome | trade_logic.py:273-301 | a trade that delivers stores the quantity or the buyer's whole room, leaves the seller the remainder, and moves seller price times the stored amount; one that does not leaves both parties' storage and wealth; both parties stay valid |
| Execution.TradeIn | trade_logic.py:258-301 | trying one opportunity delivers exactly when the buyer can pay, the seller holds the quantity and the buyer has room for 99% of it; the buyer then gains the quantity or its whole room and pays seller price times that amount to the seller, while a failure leaves both parties' storage and wealth; the list length, total wealth and validity are kept; only the two parties change, and only in storage, wealth and logs |
| Execution.Trades | trade_logic.py:256-301 | reference definition of the trading loop: each opportunity is tried in order on the settlements the earlier ones left, yields a record exactly when its trade delivers, and trading stops once max_trades_per_tick trades have completed (its properties are the `Execution.Trades…` lemmas below) |
| Execution.TradesLength | trade_logic.py:256-301 | trading keeps the number of settlements |
| Execution.TradesConserveWealth | trade_logic.py:273-293 | trading conserves the total wealth of the settlements |
| Execution.TradesKeepShape | trade_logic.py:256-301 | trading changes settlements only in storage, wealth and log |
| Execution.TradesKeepValid | trade_logic.py:256-301 | trading keeps every settlement valid |
| Execution.TradesCount | trade_logic.py:256-259 | at most the trade limit, and at most one trade per remaining opportunity, is recorded |
| Execution.TradesStamped | trade_logic.py:290-292 | every record carries this tick and a positive quantity |
| Execution.Recent | trade_logic.py:302-303 | the recent log holds a line per record, in order, then the earlier lines, cut to 10 |
| Execution.ExecuteTrades | trade_logic.py:253-303 | only settlements and the two trade logs change; the records are those `Execution.Trades` makes, so opportunity k yields one exactly when its trade delivers on the settlements left by the ones before; in particular a first opportunity that delivers is recorded first, with its parties and amount; at most max_trades_per_tick trades are recorded, at this tick; the recent log holds this call's trades first, in execution order, then the older lines, cut to 10; total wealth is conserved; validity is kept |
| Simulation.Upkeep | trade_logic.py:333-336 | upkeep changes only wealth and never raises it; a positive load at a positive rate costs exactly load times rate, which may put the settlement in debt |
| Simulation.ProducePhase | trade_logic.py:312-313 | production changes only storage, labor and wealth; with a sane catalogue total wealth never rises and validity is kept; a settlement whose first shuffled recipe fires on full labor ends at least that recipe's labor and wealth cost lower |
| Simulation.ConsumePhase | trade_logic.py:316-317 | consumption changes only storage, never raises an amount, keeps total wealth and validity; with distinct ids each good eaten in a settlement is left at exactly stock minus its jittered demand when that demand is above 0.01 and covered, is emptied when its stock is above 0.01 but short, and is unchanged when demand or stock is at most 0.01 |
| Simulation.PricePhase | trade_logic.py:320-321 | repricing changes only prices and keeps total wealth; with distinct ids every settlement prices every good inside its band |
| Simulation.UpkeepPhase | trade_logic.py:329-336 | upkeep runs only at a positive rate, changes only wealth, never raises any settlement's wealth, and keeps validity |
| Simulation.ConsumptionSurvivesPricing | trade_logic.py:316-321 | repricing after consumption keeps every amount consumption left, so the consumption bounds still hold after the pricing phase |
| Simulation.Prepared | trade_logic.py:307-321 | after production, consumption and pricing the world has as many settlements, no more total wealth, valid settlements and in-band prices under the catalogue's assumptions; no amount rises over what production left, and with distinct ids each eaten good is left at stock minus its jittered demand when covered, emptied when short, or untouched when negligible, measured from production's output |
| Simulation.FoundAreAddressed | trade_logic.py:226-241 | every opportunity found names two different settlements of the list |
| Simulation.Market | trade_logic.py:324-326 | trading runs only when there are opportunities; with none, the world is unchanged, including the previous tick's trade details; otherwise the settlements and the trade records are exactly those `Execution.Trades` makes from the opportunities found, the recent log is built from them, at most max_trades_per_tick trades are recorded, at this tick; prices are untouched, total wealth is conserved and validity is kept |
| Simulation.TradeAndUpkeep | trade_logic.py:324-336 | the market and the upkeep together keep prices, never raise total wealth, keep validity, leave the trade logs alone when there is no opportunity, and otherwise record exactly the trades `Execution.Trades` makes from the opportunities found, at most max_trades_per_tick of them, of this tick |
| Simulation.Step | trade_logic.py:305-336 | a tick advances the counter by one and keeps catalogue and parameters; with a sane catalogue it keeps the world valid and never raises total wealth; with distinct ids it ends with every price in its band; the trade details are either the previous tick's, untouched, or at most max_trades_per_tick trades stamped with the new tick |

## Left out

- Non-bulk goods: `ItemInstance`, `item_storage` and every non-bulk branch (trade_logic.py:25-35, 73-78, 83, 94-105, 244-246, 265-270, 280-285, 296-298). Every good is modelled as bulk, so an item's identity, quality and trade history are not modelled.
- `Region`, `Civilization`, the world's `add_*` registry methods and the settlements' map coordinates: these are containers the economic phases never read.
- `Good.add_recipe` and its validation errors: recipes are given as data, and the catalogue's assumptions are the `SaneCatalog` predicate.
- Randomness: the recipe shuffle and the consumption jitter are arguments (`Simulation.Dice`), not drawn.
- `math.pow` is a function argument; no property of floating-point `pow` is assumed.
- Floating point: quantities, prices and wealth are exact reals, and 1e-6 and 0.99 are exact constants. Rounding is not modelled.
- Log texts: log lines and trade messages are structured records holding the same fields, not formatted strings.
- `print` output, the UI modules and `world_setup.py` (configuration files, recipe loading, settlement placement): I/O outside the engine.
- `consumption_needs` is never written by the engine. It is modelled as a read-only map whose missing keys read as 1.0.
- Consumption.Consume, Consumption.ConsumeBounds: the per-good amounts are stated only for a catalogue with distinct ids, which the goods dict guarantees.
- Simulation.Step: the price-band property is stated for a catalogue with distinct ids, which the goods dict guarantees. The rule that a tick with no opportunity leaves both trade logs in place is stated on `Simulation.Market` and `Simulation.TradeAndUpkeep`, which receive the prepared settlements. `Simulation.Step` itself states only that its trade details are either the previous ones or this tick's.
- Production.Produce, Production.RunPasses, Production.RunOrder, Simulation.ProducePhase: beyond the cost of the first recipe tried when it fires, which recipes fire in which pass is not stated. The per-recipe effect is in `Production.FireRecipe` and `Production.RecipeEffect`. They also run the corrected rollback (see below).
- Production.PutOutputs, Production.Run, Production.FireRecipe, Production.Produce: a recipe input or output that is not in the goods dict makes the program raise `KeyError` (the output lookup at trade_logic.py:144, the input lookups in the rollbacks at trade_logic.py:139 and 152). The model has no such error: it stores and removes such a good like any other. The catalogue predicate `SaneCatalog` does not require recipes to name only catalogue goods.
- Production.FireRecipe: the condition under which a recipe is proved to fire (outputs above 1e-6 that fit into the room free before the attempt) is sufficient, not necessary. A recipe whose outputs fit only thanks to the room its inputs free also fires, and that case is not stated.
- Production.RunOrder, Production.RunPasses, Production.Produce, Simulation.ProducePhase: they run the corrected `Production.FireRecipe`, not the rollback as written at trade_logic.py:147-156 (first Findings row). A failed recipe therefore loses no input here.
- Execution.TradeIn, Execution.Trades, Execution.ExecuteTrades, Simulation.Market: they run the corrected `Execution.Trade`, not the failure branch as written at trade_logic.py:286, 294-299 (second Findings row). A partly stored trade therefore creates no goods here.
- Simulation.Prepared, Simulation.TradeAndUpkeep, Simulation.Step: they compose the phases above and so model the tick with both Findings corrected.

## Findings

| source | as written | input that shows it | evidently intended | confidence | as-written member | corrected member |
|---|---|---|---|---|---|---|
| trade_logic.py:147-156 | when an output does not fit, the consumed inputs are added back through the capacity-bounded `add_to_storage` before the partial output is removed, so the partial output can take the room the inputs need | storage capacity 10 holding 10 ore; recipe 5 ore → 10 tools: the ore leaves 5 free, 5 tools fit, the check fails, the 5 ore cannot be put back into the full store, then the tools are removed; 5 ore are lost | a failed recipe leaves storage as it was before the attempt | not executed | Production.FireRecipeAsWritten, Production.RollbackLosesInputs | Production.FireRecipe |
| trade_logic.py:286, 294-299 | when the buyer stores part but less than 99% of the goods, the whole removed quantity is returned to the seller while the part the buyer stored stays with the buyer | seller holds 5 grain with room to spare; buyer has capacity 10 holding 9.5 wood; a trade of 1 grain: the buyer stores 0.5, the trade fails, the seller gets 1 back; 5.5 grain exist where there were 5 | a failed delivery leaves both parties' stock as it was | not executed | Execution.TradeAsWritten, Execution.FailedTradeCreatesGoods | Execution.Trade |

=== FILE: common.dfy ===
/** Small shared vocabulary: an optional value, the engine's zero tolerance,
    and the real-valued min/max/clamp the Python code builds its arithmetic from. */
module Common {

  /** A value that may be missing, as a Python `None` default or a `dict.get` miss. */
  datatype Option<T> = None | Some(value: T) {

    /** The value, or `default` when there is none (`d.get(key, default)`). */
    function GetOr(default: T): T {
      match this
      case Some(v) => v
      case None => default
    }
  }

  /** The tolerance below which the engine treats a quantity as zero (1e-6). */
  const Eps: real := 0.000001

  /** The fraction of a requested quantity that must actually move for a
      storage operation to count as complete (0.99). */
  const Complete: real := 0.99

  /** How many times `range(n)` runs. */
  function Times(n: int): nat {
    if n > 0 then n else 0
  }

  function Min(a: real, b: real): real {
    if a <= b then a else b
  }

  function Max(a: real, b: real): real {
    if a >= b then a else b
  }

  /** `max(lo, min(v, hi))`: the price clamp. */
  function Clamp(v: real, lo: real, hi: real): (r: real)
    ensures lo <= r
    ensures lo <= hi ==> r <= hi
    ensures lo <= v <= hi ==> r == v
    ensures v <= lo ==> r == lo
    ensures lo <= hi <= v ==> r == hi
  {
    Max(lo, Min(v, hi))
  }

  /** Clamping never reverses the order of two values. */
  lemma ClampMonotone(v: real, w: real, lo: real, hi: real)
    requires v <= w
    ensures Clamp(v, lo, hi) <= Clamp(w, lo, hi)
  {
  }
}

=== FILE: config.dfy ===
/** The `simulation_parameters` the engine reads, each with the default the
    engine falls back to when the key is missing. */
module Config {
  import opened Common

  datatype Params = Params(
    priceSensitivity: Option<real>,
    tradeProfitMarginThreshold: Option<real>,
    maxTradesPerTick: Option<int>,
    baseConsumptionRate: Option<real>,
    maxProductionPasses: Option<int>,
    minPriceMultiplier: Option<real>,
    maxPriceMultiplier: Option<real>,
    cityPopulationThreshold: Option<int>,
    storageCostPerUnit: Option<real>)

  function PriceSensitivity(p: Params): real { p.priceSensitivity.GetOr(2.0) }

  function ProfitThreshold(p: Params): real { p.tradeProfitMarginThreshold.GetOr(1.05) }

  function MaxTrades(p: Params): int { p.maxTradesPerTick.GetOr(5) }

  function ConsumptionRate(p: Params): real { p.baseConsumptionRate.GetOr(0.1) }

  function ProductionPasses(p: Params): int { p.maxProductionPasses.GetOr(5) }

  function MinPriceMultiplier(p: Params): real { p.minPriceMultiplier.GetOr(0.1) }

  function MaxPriceMultiplier(p: Params): real { p.maxPriceMultiplier.GetOr(10.0) }

  function CityThreshold(p: Params): int { p.cityPopulationThreshold.GetOr(150) }

  function StorageCost(p: Params): real { p.storageCostPerUnit.GetOr(0.0) }
}

=== FILE: consumption.dfy ===
/** The consumption phase (`Settlement.consume`): the population eats into
    storage, each good in catalogue order, in proportion to its size. The random
    jitter is an argument: one factor in [0.9, 1.1] per catalogue good. */
module Consumption {
  import opened Common
  import opened Stocks
  import opened Goods
  import opened Config
  import opened Settlements

  /** Which goods a settlement consumes (and so prices by demand): never iron
      ore or seed; bread only in a city; grain only outside one; anything else always. */
  predicate Eaten(g: GoodId, city: bool) {
    && g != "iron_ore" && g != "seed"
    && if g == "bread" then city else !(g == "grain" && city)
  }

  /** `consumption_needs[g]`, a defaultdict whose default is 1.0. */
  function NeedOf(s: Settlement, g: GoodId): real {
    if g in s.needs then s.needs[g] else 1.0
  }

  /** How much of `g` the population wants this tick, before clipping at zero. */
  function Wanted(s: Settlement, g: GoodId, rate: real, jitter: real): real {
    rate * s.population as real * NeedOf(s, g) * jitter
  }

  predicate JitterFits(goods: seq<Good>, jitter: seq<real>) {
    |jitter| == |goods| && forall k :: 0 <= k < |jitter| ==> 0.9 <= jitter[k] <= 1.1
  }

  /** Consumption of one good: takes what is wanted, or what there is; when
      either is negligible (0.01 or less) nothing is taken. A stock that covers
      the demand is left at its remainder; a stock above 0.01 that falls short
      of the demand is used up. */
  function ConsumeGood(s: Settlement, g: GoodId, rate: real, city: bool, jitter: real): (r: Settlement)
    ensures r == s.(storage := r.storage)
    ensures forall h :: h != g ==> TotalStored(r, h) == TotalStored(s, h)
    ensures !Eaten(g, city) ==> r == s
    ensures Valid(s) ==> Valid(r)
    ensures WellFormed(s.storage) ==> WellFormed(r.storage)
    ensures WellFormed(s.storage) ==>
      && TotalStored(r, g) <= TotalStored(s, g)
      && LossBounded(s, r, g, Wanted(s, g, rate, jitter))
    ensures WellFormed(s.storage) && Eaten(g, city) && 0.01 < Wanted(s, g, rate, jitter) <= TotalStored(s, g) ==>
      TotalStored(r, g) == Remainder(TotalStored(s, g), Wanted(s, g, rate, jitter))
    ensures WellFormed(s.storage) && Eaten(g, city) && 0.01 < TotalStored(s, g) < Wanted(s, g, rate, jitter) ==>
      TotalStored(r, g) == 0.0
    ensures Wanted(s, g, rate, jitter) <= 0.01 || TotalStored(s, g) <= 0.01 ==> r == s
  {
    if !Eaten(g, city) then s
    else
      var needed := Max(0.0, Wanted(s, g, rate, jitter));
      if needed > 0.01 then
        var take := Min(needed, TotalStored(s, g));
        if take > 0.01 then RemoveFromStorage(s, g, take).settlement else s
      else s
  }

  function ConsumeFrom(s: Settlement, goods: seq<Good>, rate: real, city: bool, jitter: seq<real>): (r: Settlement)
    requires |jitter| == |goods|
    ensures r == s.(storage := r.storage)
    ensures forall h :: h !in Ids(goods) ==> TotalStored(r, h) == TotalStored(s, h)
    ensures forall h :: !Eaten(h, city) ==> TotalStored(r, h) == TotalStored(s, h)
    ensures WellFormed(s.storage) ==> forall h :: TotalStored(r, h) <= TotalStored(s, h)
    ensures WellFormed(s.storage) ==> WellFormed(r.storage)
    ensures Valid(s) ==> Valid(r)
    decreases |goods|
  {
    if |goods| == 0 then s
    else
      var s' := ConsumeGood(s, goods[0].id, rate, city, jitter[0]);
      ConsumeFrom(s', goods[1..], rate, city, jitter[1..])
  }

  /** `consume`: every catalogue good in order. Consumption only ever lowers
      stock, never touches a good the settlement does not eat, and changes
      nothing but storage. */
  function Consume(s: Settlement, goods: seq<Good>, params: Params, jitter: seq<real>): (r: Settlement)
    requires JitterFits(goods, jitter)
    ensures r == s.(storage := r.storage)
    ensures forall h :: !Eaten(h, IsCity(s.population, CityThreshold(params))) ==> TotalStored(r, h) == TotalStored(s, h)
    ensures WellFormed(s.storage) ==> forall h :: TotalStored(r, h) <= TotalStored(s, h)
    ensures Valid(s) ==> Valid(r)
    ensures DistinctIds(goods) && WellFormed(s.storage) ==>
      forall k :: 0 <= k < |goods| ==>
        var demand := Wanted(s, goods[k].id, ConsumptionRate(params), jitter[k]);
        && LossBounded(s, r, goods[k].id, demand)
        && (Eaten(goods[k].id, IsCity(s.population, CityThreshold(params))) ==> DemandMet(s, r, goods[k].id, demand))
  {
    var rate := ConsumptionRate(params);
    var city := IsCity(s.population, CityThreshold(params));
    ConsumeBounds(s, goods, rate, city, jitter);
    ConsumeFrom(s, goods, rate, city, jitter)
  }

  /** Both per-good bounds, for every catalogue good at once. */
  lemma ConsumeBounds(s: Settlement, goods: seq<Good>, rate: real, city: bool, jitter: seq<real>)
    requires |jitter| == |goods|
    ensures DistinctIds(goods) && WellFormed(s.storage) ==>
      forall k :: 0 <= k < |goods| ==>
        && LossBounded(s, ConsumeFrom(s, goods, rate, city, jitter), goods[k].id, Wanted(s, goods[k].id, rate, jitter[k]))
        && (Eaten(goods[k].id, city) ==> DemandMet(s, ConsumeFrom(s, goods, rate, city, jitter), goods[k].id, Wanted(s, goods[k].id, rate, jitter[k])))
  {
    if DistinctIds(goods) && WellFormed(s.storage) {
      var r := ConsumeFrom(s, goods, rate, city, jitter);
      forall k | 0 <= k < |goods|
        ensures LossBounded(s, r, goods[k].id, Wanted(s, goods[k].id, rate, jitter[k]))
        ensures Eaten(goods[k].id, city) ==> DemandMet(s, r, goods[k].id, Wanted(s, goods[k].id, rate, jitter[k]))
      {
        ConsumptionBounded(s, goods, rate, city, jitter, k);
        if Eaten(goods[k].id, city) {
          ConsumptionMeetsDemand(s, goods, rate, city, jitter, k);
        }
      }
    }
  }

  /** What consuming the rest of a catalogue leaves of a good it does not list. */
  lemma ConsumeFromSkips(s: Settlement, goods: seq<Good>, rate: real, city: bool, jitter: seq<real>, g: GoodId)
    requires |jitter| == |goods| && g !in Ids(goods)
    ensures TotalStored(ConsumeFrom(s, goods, rate, city, jitter), g) == TotalStored(s, g)
  {
  }

  /** The loss bound for one good in terms of what there was before its turn:
      at most the demand, except that a remainder below the 1e-6 tolerance
      goes with it. */
  predicate LossBounded(before: Settlement, after: Settlement, g: GoodId, demand: real) {
    || TotalStored(before, g) - TotalStored(after, g) <= Max(0.0, demand)
    || (TotalStored(after, g) == 0.0 && TotalStored(before, g) < Max(0.0, demand) + Eps)
  }

  /** A good an earlier step did not touch carries its bound through that step. */
  lemma LossCarries(s: Settlement, s': Settlement, r: Settlement, g: GoodId, demand: real)
    requires TotalStored(s', g) == TotalStored(s, g)
    requires LossBounded(s', r, g, demand)
    ensures LossBounded(s, r, g, demand)
  {
  }

  /** Demand depends only on population and needs, which consumption keeps. */
  lemma SameDemand(s: Settlement, t: Settlement, g: GoodId, rate: real, jitter: real)
    requires t == s.(storage := t.storage)
    ensures Wanted(t, g, rate, jitter) == Wanted(s, g, rate, jitter)
  {
  }

  /** The first good's turn is its only one when the ids are distinct. */
  lemma FirstBounded(s: Settlement, goods: seq<Good>, rate: real, city: bool, jitter: seq<real>)
    requires |jitter| == |goods| > 0 && DistinctIds(goods)
    requires WellFormed(s.storage)
    ensures LossBounded(s, ConsumeFrom(s, goods, rate, city, jitter), goods[0].id, Wanted(s, goods[0].id, rate, jitter[0]))
  {
    var g := goods[0].id;
    var s' := ConsumeGood(s, g, rate, city, jitter[0]);
    DistinctTail(goods);
    ConsumeFromSkips(s', goods[1..], rate, city, jitter[1..], g);
    assert LossBounded(s, s', g, Wanted(s, g, rate, jitter[0]));
  }

  /** With distinct good ids, each good loses at most what one jittered demand
      asks for (at most 1.1 times the base demand), or, when that leaves less
      than 1e-6, all of it. */
  lemma {:induction false} ConsumptionBounded(s: Settlement, goods: seq<Good>, rate: real, city: bool, jitter: seq<real>, k: nat)
    requires |jitter| == |goods| && DistinctIds(goods) && k < |goods|
    requires WellFormed(s.storage)
    ensures LossBounded(s, ConsumeFrom(s, goods, rate, city, jitter), goods[k].id, Wanted(s, goods[k].id, rate, jitter[k]))
    decreases |goods|
  {
    if k == 0 {
      FirstBounded(s, goods, rate, city, jitter);
    } else {
      var s' := ConsumeGood(s, goods[0].id, rate, city, jitter[0]);
      var r := ConsumeFrom(s', goods[1..], rate, city, jitter[1..]);
      assert ConsumeFrom(s, goods, rate, city, jitter) == r;
      DistinctTail(goods);
      var g := goods[k].id;
      assert goods[1..][k - 1] == goods[k] && jitter[1..][k - 1] == jitter[k];
      ConsumptionBounded(s', goods[1..], rate, city, jitter[1..], k - 1);
      assert goods[0].id != g;
      SameDemand(s, s', g, rate, jitter[k]);
      LossCarries(s, s', r, g, Wanted(s, g, rate, jitter[k]));
    }
  }

  /** What an eaten good's turn must take, given the stock before it: a
      demand above the 0.01 floor that the stock covers is taken in full,
      leaving the remainder (nothing when that is below 1e-6); a
      stock above 0.01 that falls short of such a demand is used up; a
      negligible demand or stock leaves the good as it was. */
  predicate DemandMet(before: Settlement, after: Settlement, g: GoodId, demand: real) {
    && (0.01 < demand <= TotalStored(before, g) ==> TotalStored(after, g) == Remainder(TotalStored(before, g), demand))
    && (0.01 < TotalStored(before, g) < demand ==> TotalStored(after, g) == 0.0)
    && (demand <= 0.01 || TotalStored(before, g) <= 0.01 ==> TotalStored(after, g) == TotalStored(before, g))
  }

  /** The first good, if eaten, gets its demand met, and no later turn touches it. */
  lemma FirstMet(s: Settlement, goods: seq<Good>, rate: real, city: bool, jitter: seq<real>)
    requires |jitter| == |goods| > 0 && DistinctIds(goods) && Eaten(goods[0].id, city)
    requires WellFormed(s.storage)
    ensures DemandMet(s, ConsumeFrom(s, goods, rate, city, jitter), goods[0].id, Wanted(s, goods[0].id, rate, jitter[0]))
  {
    var g := goods[0].id;
    var s' := ConsumeGood(s, g, rate, city, jitter[0]);
    DistinctTail(goods);
    ConsumeFromSkips(s', goods[1..], rate, city, jitter[1..], g);
    assert DemandMet(s, s', g, Wanted(s, g, rate, jitter[0]));
  }

  /** With distinct good ids, every good the settlement eats loses exactly
      its jittered demand whenever that demand is above 0.01 and the stock
      covers it (all of it when the remainder is below 1e-6), is used up when its stock above 0.01 falls short of such a
      demand, and is left alone when demand or stock is negligible. */
  lemma {:induction false} ConsumptionMeetsDemand(s: Settlement, goods: seq<Good>, rate: real, city: bool, jitter: seq<real>, k: nat)
    requires |jitter| == |goods| && DistinctIds(goods) && k < |goods| && Eaten(goods[k].id, city)
    requires WellFormed(s.storage)
    ensures DemandMet(s, ConsumeFrom(s, goods, rate, city, jitter), goods[k].id, Wanted(s, goods[k].id, rate, jitter[k]))
    decreases |goods|
  {
    if k == 0 {
      FirstMet(s, goods, rate, city, jitter);
    } else {
      var s' := ConsumeGood(s, goods[0].id, rate, city, jitter[0]);
      var r := ConsumeFrom(s', goods[1..], rate, city, jitter[1..]);
      assert ConsumeFrom(s, goods, rate, city, jitter) == r;
      DistinctTail(goods);
      var g := goods[k].id;
      assert goods[1..][k - 1] == goods[k] && jitter[1..][k - 1] == jitter[k];
      ConsumptionMeetsDemand(s', goods[1..], rate, city, jitter[1..], k - 1);
      assert goods[0].id != g;
      SameDemand(s, s', g, rate, jitter[k]);
      assert TotalStored(s', g) == TotalStored(s, g);
    }
  }
}

=== FILE: discovery.dfy ===
/** Trade discovery (`World.find_trade_opportunities`): every unordered pair
    of settlements, in list order, is compared good by good; where one side's
    price beats the other's by the profit threshold, the cheaper side offers up
    to one unit to the dearer side. The candidates are then ranked by profit
    per unit, highest first, with Python's stable sort keeping scan order among
    equal profits. Settlements are named by their position in the world's list. */
module Discovery {
  import opened Common
  import opened Stocks
  import opened Goods
  import opened Settlements

  datatype Opportunity = Opportunity(
    seller: nat,
    buyer: nat,
    good: Good,
    profit: real,
    qty: real,
    sellerPrice: real,
    buyerPrice: real)

  /** What every opportunity promises about the state it was found in: two
      different settlements that both price the good, a buyer price above the
      seller price times the threshold, a positive profit per unit, a positive
      quantity of at most one unit that the seller holds, and a buyer with
      some wealth. */
  predicate Sound(ss: seq<Settlement>, threshold: real, o: Opportunity) {
    && o.seller < |ss| && o.buyer < |ss| && o.seller != o.buyer
    && o.good.id in ss[o.seller].prices && o.good.id in ss[o.buyer].prices
    && o.sellerPrice == ss[o.seller].prices[o.good.id]
    && o.buyerPrice == ss[o.buyer].prices[o.good.id]
    && o.buyerPrice > o.sellerPrice * threshold
    && o.profit == o.buyerPrice - o.sellerPrice && o.profit > Eps
    && Eps < o.qty <= 1.0 && o.qty <= TotalStored(ss[o.seller], o.good.id)
    && ss[o.buyer].wealth > 0.0
  }

  /** Whether selling from `seller` to `buyer` at these prices clears the
      profit, stock and wealth filters. */
  predicate Worthwhile(ss: seq<Settlement>, seller: nat, buyer: nat, good: Good, sellerPrice: real, buyerPrice: real)
    requires seller < |ss| && buyer < |ss|
  {
    buyerPrice - sellerPrice > Eps && TotalStored(ss[seller], good.id) > Eps && ss[buyer].wealth > 0.0
  }

  function Offer(ss: seq<Settlement>, seller: nat, buyer: nat, good: Good, sellerPrice: real, buyerPrice: real): Option<Opportunity>
    requires seller < |ss| && buyer < |ss|
  {
    if Worthwhile(ss, seller, buyer, good, sellerPrice, buyerPrice) then
      var qty := Min(1.0, TotalStored(ss[seller], good.id));
      Some(Opportunity(seller, buyer, good, buyerPrice - sellerPrice, qty, sellerPrice, buyerPrice))
    else None
  }

  /** The comparison of settlements `i` and `j` (i before j in the list) for
      one good. The second settlement is checked as buyer first. An offer is
      made exactly when both price the good, one price beats the other by the
      threshold, and the filters pass. */
  function Candidate(ss: seq<Settlement>, i: nat, j: nat, good: Good, threshold: real): (r: Option<Opportunity>)
    requires i < j < |ss|
    ensures r.Some? ==> Sound(ss, threshold, r.value) && r.value.good == good
    ensures r.Some? ==> (r.value.seller, r.value.buyer) in {(i, j), (j, i)}
    ensures r.Some? <==>
      && good.id in ss[i].prices && good.id in ss[j].prices
      && var pi := ss[i].prices[good.id];
         var pj := ss[j].prices[good.id];
         if pj > pi * threshold then Worthwhile(ss, i, j, good, pi, pj)
         else pi > pj * threshold && Worthwhile(ss, j, i, good, pj, pi)
    ensures r.Some? && r.value.seller == j ==> !(ss[j].prices[good.id] > ss[i].prices[good.id] * threshold)
  {
    if good.id !in ss[i].prices || good.id !in ss[j].prices then None
    else
      var pi := ss[i].prices[good.id];
      var pj := ss[j].prices[good.id];
      if pj > pi * threshold then Offer(ss, i, j, good, pi, pj)
      else if pi > pj * threshold then Offer(ss, j, i, good, pj, pi)
      else None
  }

  /** The offers between `i` and `j`, goods from position `k` on, in catalogue order. */
  function PairScan(ss: seq<Settlement>, i: nat, j: nat, goods: seq<Good>, threshold: real, k: nat): (r: seq<Opportunity>)
    requires i < j < |ss| && k <= |goods|
    ensures forall o :: o in r ==> Sound(ss, threshold, o)
    decreases |goods| - k
  {
    if k == |goods| then []
    else
      var rest := PairScan(ss, i, j, goods, threshold, k + 1);
      match Candidate(ss, i, j, goods[k], threshold)
      case Some(o) => [o] + rest
      case None => rest
  }

  /** The offers of `i` with every partner from `j` on. */
  function RowScan(ss: seq<Settlement>, i: nat, j: nat, goods: seq<Good>, threshold: real): (r: seq<Opportunity>)
    requires i < j <= |ss|
    ensures forall o :: o in r ==> Sound(ss, threshold, o)
    decreases |ss| - j
  {
    if j == |ss| then []
    else PairScan(ss, i, j, goods, threshold, 0) + RowScan(ss, i, j + 1, goods, threshold)
  }

  /** The offers of every pair whose first member is at position `i` or later. */
  function Scan(ss: seq<Settlement>, i: nat, goods: seq<Good>, threshold: real): (r: seq<Opportunity>)
    requires i <= |ss|
    ensures forall o :: o in r ==> Sound(ss, threshold, o)
    decreases |ss| - i
  {
    if i == |ss| then []
    else RowScan(ss, i, i + 1, goods, threshold) + Scan(ss, i + 1, goods, threshold)
  }

  lemma {:induction false} PairScanExact(ss: seq<Settlement>, i: nat, j: nat, goods: seq<Good>, threshold: real, k: nat, o: Opportunity)
    requires i < j < |ss| && k <= |goods|
    ensures o in PairScan(ss, i, j, goods, threshold, k) <==>
      exists k' :: k <= k' < |goods| && Candidate(ss, i, j, goods[k'], threshold) == Some(o)
    decreases |goods| - k
  {
    if k < |goods| {
      PairScanExact(ss, i, j, goods, threshold, k + 1, o);
    }
  }

  lemma {:induction false} RowScanExact(ss: seq<Settlement>, i: nat, j: nat, goods: seq<Good>, threshold: real, o: Opportunity)
    requires i < j <= |ss|
    ensures o in RowScan(ss, i, j, goods, threshold) <==>
      exists j', k :: j <= j' < |ss| && 0 <= k < |goods| && Candidate(ss, i, j', goods[k], threshold) == Some(o)
    decreases |ss| - j
  {
    if j < |ss| {
      var here := PairScan(ss, i, j, goods, threshold, 0);
      var rest := RowScan(ss, i, j + 1, goods, threshold);
      assert RowScan(ss, i, j, goods, threshold) == here + rest;
      PairScanExact(ss, i, j, goods, threshold, 0, o);
      RowScanExact(ss, i, j + 1, goods, threshold, o);
      if o in here {
        var k :| 0 <= k < |goods| && Candidate(ss, i, j, goods[k], threshold) == Some(o);
        assert j <= j < |ss|;
      } else if o in rest {
        var j', k :| j + 1 <= j' < |ss| && 0 <= k < |goods| && Candidate(ss, i, j', goods[k], threshold) == Some(o);
        assert j <= j';
      } else {
        forall j', k | j <= j' < |ss| && 0 <= k < |goods|
          ensures Candidate(ss, i, j', goods[k], threshold) != Some(o)
        {
          if j' == j {
            assert !(exists k' :: 0 <= k' < |goods| && Candidate(ss, i, j, goods[k'], threshold) == Some(o));
          }
        }
      }
    }
  }

  lemma {:induction false} ScanExact(ss: seq<Settlement>, i: nat, goods: seq<Good>, threshold: real, o: Opportunity)
    requires i <= |ss|
    ensures o in Scan(ss, i, goods, threshold) <==>
      exists a, b, k :: i <= a < b < |ss| && 0 <= k < |goods| && Candidate(ss, a, b, goods[k], threshold) == Some(o)
  {
    ScanOnlyCandidates(ss, i, goods, threshold, o);
    ScanFindsAll(ss, i, goods, threshold, o);
  }

  lemma {:induction false} ScanOnlyCandidates(ss: seq<Settlement>, i: nat, goods: seq<Good>, threshold: real, o: Opportunity)
    requires i <= |ss|
    ensures o in Scan(ss, i, goods, threshold) ==>
      exists a, b, k :: i <= a < b < |ss| && 0 <= k < |goods| && Candidate(ss, a, b, goods[k], threshold) == Some(o)
    decreases |ss| - i
  {
    if i < |ss| {
      var row := RowScan(ss, i, i + 1, goods, threshold);
      var rest := Scan(ss, i + 1, goods, threshold);
      assert Scan(ss, i, goods, threshold) == row + rest;
      if o in row {
        RowScanExact(ss, i, i + 1, goods, threshold, o);
        var b, k :| i + 1 <= b < |ss| && 0 <= k < |goods| && Candidate(ss, i, b, goods[k], threshold) == Some(o);
        assert i <= i < b < |ss|;
      } else if o in rest {
        ScanOnlyCandidates(ss, i + 1, goods, threshold, o);
        var a, b, k :| i + 1 <= a < b < |ss| && 0 <= k < |goods| && Candidate(ss, a, b, goods[k], threshold) == Some(o);
        assert i <= a;
      }
    }
  }

  lemma {:induction false} ScanFindsAll(ss: seq<Settlement>, i: nat, goods: seq<Good>, threshold: real, o: Opportunity)
    requires i <= |ss|
    ensures (exists a, b, k :: i <= a < b < |ss| && 0 <= k < |goods| && Candidate(ss, a, b, goods[k], threshold) == Some(o)) ==>
      o in Scan(ss, i, goods, threshold)
    decreases |ss| - i
  {
    if exists a, b, k :: i <= a < b < |ss| && 0 <= k < |goods| && Candidate(ss, a, b, goods[k], threshold) == Some(o) {
      var a, b, k :| i <= a < b < |ss| && 0 <= k < |goods| && Candidate(ss, a, b, goods[k], threshold) == Some(o);
      var row := RowScan(ss, i, i + 1, goods, threshold);
      var rest := Scan(ss, i + 1, goods, threshold);
      assert Scan(ss, i, goods, threshold) == row + rest;
      if a == i {
        RowScanExact(ss, i, i + 1, goods, threshold, o);
        assert i + 1 <= b < |ss| && Candidate(ss, i, b, goods[k], threshold) == Some(o);
        assert o in row;
      } else {
        assert i + 1 <= a < b < |ss|;
        ScanFindsAll(ss, i + 1, goods, threshold, o);
        assert o in rest;
      }
    }
  }

  /** Highest profit first. */
  predicate SortedByProfit(os: seq<Opportunity>) {
    forall a, b :: 0 <= a < b < |os| ==> os[a].profit >= os[b].profit
  }

  /** Places `x` before the first entry whose profit it matches or beats, so
      it stays ahead of the equal-profit entries that came after it. */
  function Insert(x: Opportunity, os: seq<Opportunity>): (r: seq<Opportunity>)
    ensures multiset(r) == multiset(os) + multiset{x}
    ensures forall y :: y in r ==> y == x || y in os
  {
    if |os| == 0 then [x]
    else if os[0].profit <= x.profit then [x] + os
    else
      assert os == [os[0]] + os[1..];
      [os[0]] + Insert(x, os[1..])
  }

  /** Every entry's profit is at most `p`. */
  predicate AtMost(os: seq<Opportunity>, p: real) {
    forall y :: y in os ==> y.profit <= p
  }

  lemma {:induction false} InsertKeepsOrder(x: Opportunity, os: seq<Opportunity>)
    requires SortedByProfit(os)
    ensures SortedByProfit(Insert(x, os))
  {
    if |os| > 0 && os[0].profit > x.profit {
      var tail := os[1..];
      var rest := Insert(x, tail);
      InsertKeepsOrder(x, tail);
      assert AtMost(tail, os[0].profit) by {
        forall y | y in tail ensures y.profit <= os[0].profit {
          var n :| 0 <= n < |tail| && tail[n] == y;
          assert os[n + 1] == y;
        }
      }
      assert AtMost(rest, os[0].profit);
      var r := [os[0]] + rest;
      assert Insert(x, os) == r;
      forall a, b | 0 <= a < b < |r| ensures r[a].profit >= r[b].profit {
        assert r[b] == rest[b - 1];
        if a > 0 {
          assert r[a] == rest[a - 1];
        } else {
          assert r[b] in rest;
        }
      }
    } else if |os| > 0 {
      var r := [x] + os;
      assert Insert(x, os) == r;
      forall a, b | 0 <= a < b < |r| ensures r[a].profit >= r[b].profit {
        assert r[b] == os[b - 1];
        if a > 0 {
          assert r[a] == os[a - 1];
        } else {
          assert os[0].profit >= os[b - 1].profit || b == 1;
        }
      }
    }
  }

  /** Stable sort by profit, highest first (`sort(key=profit, reverse=True)`). */
  function SortByProfit(os: seq<Opportunity>): (r: seq<Opportunity>)
    ensures multiset(r) == multiset(os)
    ensures SortedByProfit(r)
  {
    if |os| == 0 then []
    else
      var rest := SortByProfit(os[1..]);
      InsertKeepsOrder(os[0], rest);
      assert os == [os[0]] + os[1..];
      Insert(os[0], rest)
  }

  /** The entries with a given profit, in order. */
  function WithProfit(os: seq<Opportunity>, p: real): (r: seq<Opportunity>)
    ensures forall o :: o in r <==> o in os && o.profit == p
  {
    if |os| == 0 then []
    else if os[0].profit == p then [os[0]] + WithProfit(os[1..], p)
    else WithProfit(os[1..], p)
  }

  lemma {:induction false} InsertWithProfit(x: Opportunity, os: seq<Opportunity>, p: real)
    ensures WithProfit(Insert(x, os), p) == if x.profit == p then [x] + WithProfit(os, p) else WithProfit(os, p)
  {
    if |os| > 0 && os[0].profit > x.profit {
      InsertWithProfit(x, os[1..], p);
      assert Insert(x, os) == [os[0]] + Insert(x, os[1..]);
    }
  }

  /** The sort is stable: entries of equal profit keep their scan order. */
  lemma {:induction false} SortIsStable(os: seq<Opportunity>, p: real)
    ensures WithProfit(SortByProfit(os), p) == WithProfit(os, p)
  {
    if |os| > 0 {
      SortIsStable(os[1..], p);
      InsertWithProfit(os[0], SortByProfit(os[1..]), p);
    }
  }

  /** `find_trade_opportunities`: all offers, best first. */
  function FindOpportunities(ss: seq<Settlement>, goods: seq<Good>, threshold: real): (r: seq<Opportunity>)
    ensures SortedByProfit(r)
    ensures multiset(r) == multiset(Scan(ss, 0, goods, threshold))
    ensures forall o :: o in r ==> Sound(ss, threshold, o)
  {
    var found := Scan(ss, 0, goods, threshold);
    var r := SortByProfit(found);
    assert forall o :: o in r ==> o in found by {
      forall o | o in r ensures o in found {
        assert o in multiset(r);
      }
    }
    r
  }

  /** An opportunity is listed exactly when comparing some pair of settlements
      `i < j` for some catalogue good produces it. */
  lemma FindOpportunitiesExact(ss: seq<Settlement>, goods: seq<Good>, threshold: real, o: Opportunity)
    ensures o in FindOpportunities(ss, goods, threshold) <==>
      exists i, j, k :: 0 <= i < j < |ss| && 0 <= k < |goods| && Candidate(ss, i, j, goods[k], threshold) == Some(o)
  {
    ScanExact(ss, 0, goods, threshold, o);
    var r := FindOpportunities(ss, goods, threshold);
    assert o in r <==> o in multiset(r);
  }
}

=== FILE: execution.dfy ===
/** Trade execution (`World.execute_trades`): opportunities are tried best
    first until `max_trades_per_tick` trades have gone through. A trade needs
    the buyer to afford the seller's price for the quantity and the seller to
    hold it; the goods then leave the seller, the buyer stores what fits, and
    the buyer pays the seller for what it stored. */
module Execution {
  import opened Common
  import opened Stocks
  import opened Goods
  import opened Config
  import opened Settlements
  import opened Discovery
  import opened WorldState

  /** The quantity tried: the opportunity's quantity, at most one unit and at least 0.01. */
  function TradeQty(o: Opportunity): (q: real)
    ensures 0.01 <= q <= 1.0
    ensures 0.01 <= o.qty <= 1.0 ==> q == o.qty
  {
    Max(0.01, Min(o.qty, 1.0))
  }

  /** What `qty` units cost at `price`. */
  function Cost(price: real, qty: real): real {
    price * qty
  }

  /** Whether the buyer can pay for the quantity and the seller holds it. */
  predicate Feasible(seller: Settlement, buyer: Settlement, o: Opportunity) {
    buyer.wealth >= Cost(o.sellerPrice, TradeQty(o)) && TotalStored(seller, o.good.id) >= TradeQty(o)
  }

  /** The two parties after one attempted trade, and how much the buyer
      stored if the trade went through. */
  datatype Exchange = Exchange(seller: Settlement, buyer: Settlement, delivered: Option<real>)

  /** Removing the full quantity cannot fall short once the stock check has
      passed, so the source's skip for a short removal never fires. */
  lemma FullRemoval(seller: Settlement, buyer: Settlement, o: Opportunity)
    requires Feasible(seller, buyer, o)
    ensures RemoveFromStorage(seller, o.good.id, TradeQty(o)).qty >= TradeQty(o) * Complete
  {
  }

  /** One trade, with a failed delivery undone: when the buyer cannot store
      99% of the goods, both parties keep the storage and wealth they had
      and each only logs the failure. The trade goes through exactly when it
      is feasible and the buyer has room for 99% of the quantity; it changes
      nothing but storage, wealth and logs, and conserves wealth. */
  function Trade(seller: Settlement, buyer: Settlement, o: Opportunity, tick: int): (x: Exchange)
    ensures x.delivered.Some? <==> Feasible(seller, buyer, o) && FreeCapacity(buyer) >= Complete * TradeQty(o)
    ensures SameShape(x.seller, seller) && SameShape(x.buyer, buyer)
    ensures x.seller.wealth + x.buyer.wealth == seller.wealth + buyer.wealth
  {
    var q := TradeQty(o);
    var g := o.good.id;
    var price := o.sellerPrice;
    if !Feasible(seller, buyer, o) then Exchange(seller, buyer, None)
    else
      var taken := RemoveFromStorage(seller, g, q);
      var added := AddToStorage(buyer, g, taken.qty);
      if added.qty >= taken.qty * Complete then
        var cost := Cost(price, added.qty);
        Exchange(taken.settlement.(wealth := seller.wealth + cost),
                 added.settlement.(wealth := buyer.wealth - cost),
                 Some(added.qty))
      else
        Exchange(AddLog(seller, ReturnedToSeller(buyer.name, taken.qty, o.good.name), tick),
                 AddLog(buyer, RejectedByBuyer(seller.name), tick),
                 None)
  }

  /** A completed trade: the buyer stores what fits (the whole quantity or its
      free room, at least 99% of the quantity), the seller gives up the
      quantity, and exactly the seller's price times what was stored moves
      from buyer to seller. */
  lemma TradeDelivers(seller: Settlement, buyer: Settlement, o: Opportunity, tick: int)
    requires Trade(seller, buyer, o, tick).delivered.Some?
    ensures var x := Trade(seller, buyer, o, tick); var d := x.delivered.value;
      var q := TradeQty(o); var g := o.good.id;
      && Feasible(seller, buyer, o)
      && d == Min(q, FreeCapacity(buyer))
      && Complete * q <= d <= q
      && TotalStored(x.buyer, g) == TotalStored(buyer, g) + d
      && (Distinct(seller.storage) ==> TotalStored(x.seller, g) == Remainder(TotalStored(seller, g), q))
      && x.seller.wealth == seller.wealth + Cost(o.sellerPrice, d)
      && x.buyer.wealth == buyer.wealth - Cost(o.sellerPrice, d)
  {
  }

  /** A failed trade leaves both parties' storage and wealth as they were. */
  lemma TradeFailsCleanly(seller: Settlement, buyer: Settlement, o: Opportunity, tick: int)
    requires Trade(seller, buyer, o, tick).delivered.None?
    ensures var x := Trade(seller, buyer, o, tick);
      && x.seller.storage == seller.storage && x.buyer.storage == buyer.storage
      && x.seller.wealth == seller.wealth && x.buyer.wealth == buyer.wealth
  {
  }

  /** No trade creates goods: the buyer gains at most what the seller loses,
      and every other good stays where it was. */
  lemma TradeCreatesNoGoods(seller: Settlement, buyer: Settlement, o: Opportunity, tick: int)
    requires Distinct(seller.storage)
    ensures var x := Trade(seller, buyer, o, tick); var g := o.good.id;
      && TotalStored(x.buyer, g) - TotalStored(buyer, g) <= TotalStored(seller, g) - TotalStored(x.seller, g)
      && forall h :: h != g ==> TotalStored(x.seller, h) == TotalStored(seller, h) && TotalStored(x.buyer, h) == TotalStored(buyer, h)
  {
    var x := Trade(seller, buyer, o, tick);
    if x.delivered.Some? {
      TradeDelivers(seller, buyer, o, tick);
    }
  }

  /** A trade keeps both parties valid. */
  lemma TradeKeepsValid(seller: Settlement, buyer: Settlement, o: Opportunity, tick: int)
    ensures var x := Trade(seller, buyer, o, tick);
      && (Valid(seller) ==> Valid(x.seller))
      && (Valid(buyer) ==> Valid(x.buyer))
  {
  }

  /** A buyer paying a non-negative price never goes into debt. */
  lemma BuyerStaysSolvent(seller: Settlement, buyer: Settlement, o: Opportunity, tick: int)
    requires o.sellerPrice >= 0.0 && buyer.wealth >= 0.0
    ensures Trade(seller, buyer, o, tick).buyer.wealth >= 0.0
  {
    var x := Trade(seller, buyer, o, tick);
    if x.delivered.Some? {
      TradeDelivers(seller, buyer, o, tick);
      WithinBudget(buyer.wealth, o.sellerPrice, x.delivered.value, TradeQty(o));
    } else {
      TradeFailsCleanly(seller, buyer, o, tick);
    }
  }

  /** Paying for part of what one could afford leaves a non-negative balance. */
  lemma WithinBudget(wealth: real, price: real, d: real, q: real)
    requires price >= 0.0 && 0.0 <= d <= q && wealth >= Cost(price, q)
    ensures wealth - Cost(price, d) >= 0.0
  {
    MulMonotone(price, d, q);
  }

  /** `execute_trades`' failure branch as written: the goods go back to the
      seller, but whatever the buyer did manage to store stays with the buyer. */
  function TradeAsWritten(seller: Settlement, buyer: Settlement, o: Opportunity, tick: int): (x: Exchange)
    ensures x.delivered == Trade(seller, buyer, o, tick).delivered
    ensures x.delivered.Some? ==> x == Trade(seller, buyer, o, tick)
  {
    var q := TradeQty(o);
    var g := o.good.id;
    var price := o.sellerPrice;
    if !Feasible(seller, buyer, o) then Exchange(seller, buyer, None)
    else
      var taken := RemoveFromStorage(seller, g, q);
      var added := AddToStorage(buyer, g, taken.qty);
      if added.qty >= taken.qty * Complete then
        var cost := Cost(price, added.qty);
        Exchange(taken.settlement.(wealth := seller.wealth + cost),
                 added.settlement.(wealth := buyer.wealth - cost),
                 Some(added.qty))
      else
        var back := AddToStorage(taken.settlement, g, taken.qty).settlement;
        Exchange(AddLog(back, ReturnedToSeller(buyer.name, taken.qty, o.good.name), tick),
                 AddLog(added.settlement, RejectedByBuyer(seller.name), tick),
                 None)
  }

  /** The counterexample's parties: a seller holding 5 grain, a buyer with
      capacity 10 already holding 9.5 wood, and one unit of grain offered. */
  function GrainSeller(): Settlement {
    Settlement("a", "A", 10, "plains", [Entry("grain", 5.0)], 100.0, 0.0, 0.0, map[], map[], 100.0, 1, [])
  }

  function GrainBuyer(): Settlement {
    Settlement("b", "B", 10, "plains", [Entry("wood", 9.5)], 10.0, 0.0, 0.0, map[], map[], 100.0, 1, [])
  }

  function GrainOffer(): Opportunity {
    Opportunity(0, 1, Good("grain", "Grain", 1.0, true, None), 1.0, 1.0, 1.0, 2.0)
  }

  /** The failure branch as written on the counterexample: the seller gets
      the whole unit back while the buyer keeps the half unit it stored. */
  lemma FailedTradeSteps()
    ensures TradeAsWritten(GrainSeller(), GrainBuyer(), GrainOffer(), 1) ==
      Exchange(AddLog(GrainSeller(), ReturnedToSeller("B", 1.0, "Grain"), 1),
               AddLog(GrainBuyer().(storage := [Entry("wood", 9.5), Entry("grain", 0.5)]), RejectedByBuyer("A"), 1),
               None)
  {
    var seller, buyer, o := GrainSeller(), GrainBuyer(), GrainOffer();
    assert TradeQty(o) == 1.0;
    assert TotalStored(seller, "grain") == 5.0;
    assert StorageLoad(buyer) == 9.5;
    assert Feasible(seller, buyer, o);
    var taken := RemoveFromStorage(seller, "grain", 1.0);
    assert taken.settlement == seller.(storage := [Entry("grain", 4.0)]);
    var added := AddToStorage(buyer, "grain", 1.0);
    assert FreeCapacity(buyer) == 0.5;
    assert added == Moved(buyer.(storage := [Entry("wood", 9.5), Entry("grain", 0.5)]), 0.5);
    assert StorageLoad(taken.settlement) == 4.0;
    var back := AddToStorage(taken.settlement, "grain", 1.0);
    assert back == Moved(seller, 1.0);
  }

  /** What the two parties hold before that exchange. */
  lemma GrainBefore()
    ensures TotalStored(GrainSeller(), "grain") == 5.0 && TotalStored(GrainBuyer(), "grain") == 0.0
  {
    assert "wood" != "grain" by {
      assert |"wood"| == 4 && |"grain"| == 5;
    }
    assert !Has(GrainBuyer().storage, "grain") by {
      assert [Entry("wood", 9.5)][1..] == [];
    }
  }

  /** The seller's grain after that exchange. */
  lemma GrainAfterSeller()
    ensures TotalStored(AddLog(GrainSeller(), ReturnedToSeller("B", 1.0, "Grain"), 1), "grain") == 5.0
  {
    var s := AddLog(GrainSeller(), ReturnedToSeller("B", 1.0, "Grain"), 1);
    assert s.storage == [Entry("grain", 5.0)];
  }

  /** The buyer's grain after that exchange. */
  lemma GrainAfterBuyer()
    ensures TotalStored(AddLog(GrainBuyer().(storage := [Entry("wood", 9.5), Entry("grain", 0.5)]), RejectedByBuyer("A"), 1), "grain") == 0.5
  {
    var rest: Stock := [Entry("grain", 0.5)];
    assert "wood" != "grain" by {
      assert |"wood"| == 4 && |"grain"| == 5;
    }
    assert Get([Entry("wood", 9.5)] + rest, "grain") == Get(rest, "grain") by {
      assert ([Entry("wood", 9.5)] + rest)[1..] == rest;
    }
    assert [Entry("wood", 9.5)] + rest == [Entry("wood", 9.5), Entry("grain", 0.5)];
    var b := AddLog(GrainBuyer().(storage := [Entry("wood", 9.5), Entry("grain", 0.5)]), RejectedByBuyer("A"), 1);
    assert b.storage == [Entry("wood", 9.5), Entry("grain", 0.5)];
  }

  /** A failed delivery as written creates goods: a seller with 5 grain and a
      buyer with half a unit of room left, and no grain, end up with 5.5 grain
      between them. */
  lemma FailedTradeCreatesGoods()
    ensures var seller, buyer := GrainSeller(), GrainBuyer();
      var x := TradeAsWritten(seller, buyer, GrainOffer(), 1);
      && x.delivered.None?
      && TotalStored(seller, "grain") == 5.0 && TotalStored(buyer, "grain") == 0.0
      && TotalStored(x.seller, "grain") == 5.0 && TotalStored(x.buyer, "grain") == 0.5
  {
    FailedTradeSteps();
    GrainBefore();
    GrainAfterSeller();
    GrainAfterBuyer();
  }

  /** Every opportunity names two different settlements of the list. */
  predicate Addressed(n: nat, opps: seq<Opportunity>) {
    forall k :: 0 <= k < |opps| ==> opps[k].seller < n && opps[k].buyer < n && opps[k].seller != opps[k].buyer
  }

  function Record(seller: Settlement, buyer: Settlement, o: Opportunity, qty: real, tick: int): TradeRecord {
    TradeRecord(seller.id, buyer.id, seller.name, buyer.name, o.good.id, o.good.name, qty,
                o.sellerPrice, o.buyerPrice, o.profit, tick)
  }

  /** The recent-log line written for a trade: the stored quantity at the seller's price. */
  function LineOf(t: TradeRecord): TradeLine {
    TradeLine(t.tick, t.sellerName, t.buyerName, t.qty, t.goodName, t.sellerPrice)
  }

  function Lines(ts: seq<TradeRecord>): (r: seq<TradeLine>)
    ensures |r| == |ts|
    ensures forall i :: 0 <= i < |ts| ==> r[i] == LineOf(ts[i])
  {
    if |ts| == 0 then [] else [LineOf(ts[0])] + Lines(ts[1..])
  }

  /** The settlements after one attempted trade, and what it delivered. */
  datatype Round = Round(settlements: seq<Settlement>, delivered: Option<real>)

  /** Both outcomes of one trade, in one place. */
  lemma TradeOutcome(seller: Settlement, buyer: Settlement, o: Opportunity, tick: int)
    ensures var x := Trade(seller, buyer, o, tick); var g := o.good.id;
      && (x.delivered.Some? ==>
           && x.delivered.value == Min(TradeQty(o), FreeCapacity(buyer))
           && TotalStored(x.buyer, g) == TotalStored(buyer, g) + x.delivered.value
           && (Distinct(seller.storage) ==> TotalStored(x.seller, g) == Remainder(TotalStored(seller, g), TradeQty(o)))
           && x.seller.wealth == seller.wealth + Cost(o.sellerPrice, x.delivered.value)
           && x.buyer.wealth == buyer.wealth - Cost(o.sellerPrice, x.delivered.value))
      && (x.delivered.None? ==>
           && x.seller.storage == seller.storage && x.buyer.storage == buyer.storage
           && x.seller.wealth == seller.wealth && x.buyer.wealth == buyer.wealth)
      && (Valid(seller) ==> Valid(x.seller))
      && (Valid(buyer) ==> Valid(x.buyer))
  {
    if Trade(seller, buyer, o, tick).delivered.Some? {
      TradeDelivers(seller, buyer, o, tick);
    } else {
      TradeFailsCleanly(seller, buyer, o, tick);
    }
    TradeKeepsValid(seller, buyer, o, tick);
  }

  /** Tries opportunity `o` between the two settlements it names. It
      delivers exactly when the buyer can pay, the seller holds the
      quantity and the buyer has room for 99% of it; the buyer then stores
      what fits and pays the seller's price for it, and a failed trade
      leaves both parties' stock and wealth as they were. */
  function TradeIn(ss: seq<Settlement>, o: Opportunity, tick: int): (r: Round)
    requires o.seller < |ss| && o.buyer < |ss| && o.seller != o.buyer
    ensures |r.settlements| == |ss|
    ensures r.delivered.Some? <==>
      Feasible(ss[o.seller], ss[o.buyer], o) && FreeCapacity(ss[o.buyer]) >= Complete * TradeQty(o)
    ensures r.delivered.Some? ==>
      var d := r.delivered.value; var g := o.good.id;
      && d == Min(TradeQty(o), FreeCapacity(ss[o.buyer]))
      && TotalStored(r.settlements[o.buyer], g) == TotalStored(ss[o.buyer], g) + d
      && r.settlements[o.seller].wealth == ss[o.seller].wealth + Cost(o.sellerPrice, d)
      && r.settlements[o.buyer].wealth == ss[o.buyer].wealth - Cost(o.sellerPrice, d)
    ensures r.delivered.None? ==>
      && r.settlements[o.seller].storage == ss[o.seller].storage && r.settlements[o.buyer].storage == ss[o.buyer].storage
      && r.settlements[o.seller].wealth == ss[o.seller].wealth && r.settlements[o.buyer].wealth == ss[o.buyer].wealth
    ensures r.delivered.Some? ==> r.delivered.value > 0.0
    ensures TotalWealth(r.settlements) == TotalWealth(ss)
    ensures forall i :: 0 <= i < |ss| ==> SameShape(r.settlements[i], ss[i])
    ensures forall i :: 0 <= i < |ss| && i != o.seller && i != o.buyer ==> r.settlements[i] == ss[i]
    ensures AllValid(ss) ==> AllValid(r.settlements)
  {
    var x := Trade(ss[o.seller], ss[o.buyer], o, tick);
    var ss1 := ss[o.seller := x.seller];
    TotalWealthUpdate(ss, o.seller, x.seller);
    TotalWealthUpdate(ss1, o.buyer, x.buyer);
    TradeOutcome(ss[o.seller], ss[o.buyer], o, tick);
    Round(ss1[o.buyer := x.buyer], x.delivered)
  }

  /** The settlements after a run of trades, and one record per completed trade. */
  datatype Ledger = Ledger(settlements: seq<Settlement>, records: seq<TradeRecord>)

  /** What trading from opportunity `k` on does while `room` more trades may
      complete: each opportunity is tried, in order, on the settlements the
      ones before it left, and yields a record exactly when its trade delivers. */
  function Trades(ss: seq<Settlement>, opps: seq<Opportunity>, k: nat, tick: int, room: nat): Ledger
    requires Addressed(|ss|, opps)
    decreases |opps| - k
  {
    if k >= |opps| || room == 0 then Ledger(ss, [])
    else
      var o := opps[k];
      var round := TradeIn(ss, o, tick);
      if round.delivered.Some? then
        var rest := Trades(round.settlements, opps, k + 1, tick, room - 1);
        Ledger(rest.settlements, [Record(ss[o.seller], ss[o.buyer], o, round.delivered.value, tick)] + rest.records)
      else Trades(round.settlements, opps, k + 1, tick, room)
  }

  /** A completed trade is recorded, and trading goes on from the
      settlements it left with one trade less to go. */
  lemma TradesTake(ss: seq<Settlement>, opps: seq<Opportunity>, k: nat, tick: int, room: nat)
    requires Addressed(|ss|, opps) && k < |opps| && room > 0
    requires TradeIn(ss, opps[k], tick).delivered.Some?
    ensures var o := opps[k]; var round := TradeIn(ss, o, tick);
      var rest := Trades(round.settlements, opps, k + 1, tick, room - 1);
      && Trades(ss, opps, k, tick, room).settlements == rest.settlements
      && Trades(ss, opps, k, tick, room).records ==
           [Record(ss[o.seller], ss[o.buyer], o, round.delivered.value, tick)] + rest.records
  {
  }

  /** A failed trade records nothing, and trading goes on from the
      settlements it left. */
  lemma TradesSkip(ss: seq<Settlement>, opps: seq<Opportunity>, k: nat, tick: int, room: nat)
    requires Addressed(|ss|, opps) && k < |opps| && room > 0
    requires TradeIn(ss, opps[k], tick).delivered.None?
    ensures var rest := Trades(TradeIn(ss, opps[k], tick).settlements, opps, k + 1, tick, room);
      && Trades(ss, opps, k, tick, room).settlements == rest.settlements
      && Trades(ss, opps, k, tick, room).records == rest.records
  {
  }

  /** Trading keeps the number of settlements. */
  lemma TradesLength(ss: seq<Settlement>, opps: seq<Opportunity>, k: nat, tick: int, room: nat)
    requires Addressed(|ss|, opps)
    ensures |Trades(ss, opps, k, tick, room).settlements| == |ss|
    decreases |opps| - k
  {
    if k < |opps| && room > 0 {
      var round := TradeIn(ss, opps[k], tick);
      if round.delivered.Some? {
        TradesTake(ss, opps, k, tick, room);
        TradesLength(round.settlements, opps, k + 1, tick, room - 1);
      } else {
        TradesSkip(ss, opps, k, tick, room);
        TradesLength(round.settlements, opps, k + 1, tick, room);
      }
    }
  }

  /** Trading moves wealth between settlements but never creates or destroys it. */
  lemma TradesConserveWealth(ss: seq<Settlement>, opps: seq<Opportunity>, k: nat, tick: int, room: nat)
    requires Addressed(|ss|, opps)
    ensures TotalWealth(Trades(ss, opps, k, tick, room).settlements) == TotalWealth(ss)
    decreases |opps| - k
  {
    if k < |opps| && room > 0 {
      var round := TradeIn(ss, opps[k], tick);
      if round.delivered.Some? {
        TradesTake(ss, opps, k, tick, room);
        TradesConserveWealth(round.settlements, opps, k + 1, tick, room - 1);
      } else {
        TradesSkip(ss, opps, k, tick, room);
        TradesConserveWealth(round.settlements, opps, k + 1, tick, room);
      }
    }
  }

  /** Trading changes nothing of a settlement but its storage, wealth and log. */
  lemma TradesKeepShape(ss: seq<Settlement>, opps: seq<Opportunity>, k: nat, tick: int, room: nat)
    requires Addressed(|ss|, opps)
    ensures var l := Trades(ss, opps, k, tick, room);
      |l.settlements| == |ss| && forall i :: 0 <= i < |ss| ==> SameShape(l.settlements[i], ss[i])
    decreases |opps| - k
  {
    if k < |opps| && room > 0 {
      var round := TradeIn(ss, opps[k], tick);
      if round.delivered.Some? {
        TradesTake(ss, opps, k, tick, room);
        TradesKeepShape(round.settlements, opps, k + 1, tick, room - 1);
      } else {
        TradesSkip(ss, opps, k, tick, room);
        TradesKeepShape(round.settlements, opps, k + 1, tick, room);
      }
    }
  }

  /** Trading keeps every settlement valid. */
  lemma TradesKeepValid(ss: seq<Settlement>, opps: seq<Opportunity>, k: nat, tick: int, room: nat)
    requires Addressed(|ss|, opps)
    ensures AllValid(ss) ==> AllValid(Trades(ss, opps, k, tick, room).settlements)
    decreases |opps| - k
  {
    if k < |opps| && room > 0 {
      var round := TradeIn(ss, opps[k], tick);
      if round.delivered.Some? {
        TradesTake(ss, opps, k, tick, room);
        TradesKeepValid(round.settlements, opps, k + 1, tick, room - 1);
      } else {
        TradesSkip(ss, opps, k, tick, room);
        TradesKeepValid(round.settlements, opps, k + 1, tick, room);
      }
    }
  }

  /** Trading records at most `room` trades and at most one per opportunity. */
  lemma TradesCount(ss: seq<Settlement>, opps: seq<Opportunity>, k: nat, tick: int, room: nat)
    requires Addressed(|ss|, opps)
    ensures var l := Trades(ss, opps, k, tick, room);
      |l.records| <= room && (k <= |opps| ==> |l.records| <= |opps| - k)
    decreases |opps| - k
  {
    if k < |opps| && room > 0 {
      var round := TradeIn(ss, opps[k], tick);
      if round.delivered.Some? {
        TradesTake(ss, opps, k, tick, room);
        TradesCount(round.settlements, opps, k + 1, tick, room - 1);
      } else {
        TradesSkip(ss, opps, k, tick, room);
        TradesCount(round.settlements, opps, k + 1, tick, room);
      }
    }
  }

  /** Every record is of the given tick and for a positive quantity. */
  predicate Stamped(records: seq<TradeRecord>, tick: int) {
    forall i :: 0 <= i < |records| ==> records[i].tick == tick && records[i].qty > 0.0
  }

  lemma StampedCons(t: TradeRecord, records: seq<TradeRecord>, tick: int)
    requires t.tick == tick && t.qty > 0.0 && Stamped(records, tick)
    ensures Stamped([t] + records, tick)
  {
    assert forall i :: 0 < i < |[t] + records| ==> ([t] + records)[i] == records[i - 1];
  }

  /** Every trade recorded is of this tick and for a positive quantity. */
  lemma TradesStamped(ss: seq<Settlement>, opps: seq<Opportunity>, k: nat, tick: int, room: nat)
    requires Addressed(|ss|, opps)
    ensures Stamped(Trades(ss, opps, k, tick, room).records, tick)
    decreases |opps| - k
  {
    if k < |opps| && room > 0 {
      var o := opps[k];
      var round := TradeIn(ss, o, tick);
      if round.delivered.Some? {
        TradesTake(ss, opps, k, tick, room);
        TradesStamped(round.settlements, opps, k + 1, tick, room - 1);
        StampedCons(Record(ss[o.seller], ss[o.buyer], o, round.delivered.value, tick),
                    Trades(round.settlements, opps, k + 1, tick, room - 1).records, tick);
      } else {
        TradesSkip(ss, opps, k, tick, room);
        TradesStamped(round.settlements, opps, k + 1, tick, room);
      }
    }
  }

  /** The recent-trades log after a call: a line per recorded trade, in
      order, in front of the earlier lines, cut to the first ten. */
  function Recent(records: seq<TradeRecord>, earlier: seq<TradeLine>): (r: seq<TradeLine>)
    ensures |r| == if |records| + |earlier| < LogLimit then |records| + |earlier| else LogLimit
    ensures forall i :: 0 <= i < |r| && i < |records| ==> r[i] == LineOf(records[i])
    ensures forall i :: |records| <= i < |r| ==> r[i] == earlier[i - |records|]
  {
    var recent := Lines(records) + earlier;
    if |recent| <= LogLimit then recent else recent[..LogLimit]
  }

  /** `execute_trades`: the details list is cleared and refilled with the
      trades of this call, which are exactly those `Trades` completes with at
      most `max_trades_per_tick` of them; the recent log gets a line per
      trade in front of the old lines and is cut to the first ten. Only
      settlements, the details and the recent log change; wealth is
      conserved and validity kept. */
  method ExecuteTrades(w: World, opps: seq<Opportunity>) returns (r: World)
    requires Addressed(|w.settlements|, opps)
    ensures r == w.(settlements := r.settlements, recentTrades := r.recentTrades, executed := r.executed)
    ensures r.settlements == Trades(w.settlements, opps, 0, w.tick, Times(MaxTrades(w.params))).settlements
    ensures r.executed == Trades(w.settlements, opps, 0, w.tick, Times(MaxTrades(w.params))).records
    ensures |r.settlements| == |w.settlements|
    ensures |r.executed| <= Times(MaxTrades(w.params)) && |r.executed| <= |opps|
    ensures forall i :: 0 <= i < |r.executed| ==> r.executed[i].tick == w.tick && r.executed[i].qty > 0.0
    ensures r.recentTrades == Recent(r.executed, w.recentTrades)
    ensures |opps| > 0 && Times(MaxTrades(w.params)) > 0 && TradeIn(w.settlements, opps[0], w.tick).delivered.Some? ==>
      && |r.executed| > 0
      && r.executed[0].sellerId == w.settlements[opps[0].seller].id
      && r.executed[0].buyerId == w.settlements[opps[0].buyer].id
      && r.executed[0].qty == TradeIn(w.settlements, opps[0], w.tick).delivered.value
    ensures TotalWealth(r.settlements) == TotalWealth(w.settlements)
    ensures forall i :: 0 <= i < |w.settlements| ==> SameShape(r.settlements[i], w.settlements[i])
    ensures WorldValid(w) ==> WorldValid(r)
  {
    var room := Times(MaxTrades(w.params));
    var l := Trades(w.settlements, opps, 0, w.tick, room);
    TradesLength(w.settlements, opps, 0, w.tick, room);
    TradesConserveWealth(w.settlements, opps, 0, w.tick, room);
    TradesKeepShape(w.settlements, opps, 0, w.tick, room);
    TradesKeepValid(w.settlements, opps, 0, w.tick, room);
    TradesCount(w.settlements, opps, 0, w.tick, room);
    TradesStamped(w.settlements, opps, 0, w.tick, room);
    if |opps| > 0 && room > 0 && TradeIn(w.settlements, opps[0], w.tick).delivered.Some? {
      TradesTake(w.settlements, opps, 0, w.tick, room);
    }
    r := w.(settlements := l.settlements, recentTrades := Recent(l.records, w.recentTrades), executed := l.records);
  }
}

=== FILE: goods.dfy ===
/** The catalogue of tradable goods and their production recipes (`Good`,
    `Good.add_recipe`'s record). Every good is stored in bulk. */
module Goods {
  import opened Common
  import opened Stocks

  /** A production rule: the goods it consumes and yields, the labor and
      wealth it costs, and the terrains it may run on (none listed: any). */
  datatype Recipe = Recipe(
    inputs: Stock,
    outputs: Stock,
    labor: real,
    terrains: seq<string>,
    wealthCost: real)

  datatype Good = Good(
    id: GoodId,
    name: string,
    baseValue: real,
    isProducible: bool,
    recipe: Option<Recipe>)

  /** The assumptions on a recipe that the engine's invariants rest on: inputs
      and outputs are dicts of non-negative amounts, and labor and wealth costs
      are not negative. */
  predicate SaneRecipe(r: Recipe) {
    WellFormed(r.inputs) && WellFormed(r.outputs) && r.labor >= 0.0 && r.wealthCost >= 0.0
  }

  /** Good ids are the keys of the world's ordered goods dict. */
  predicate DistinctIds(goods: seq<Good>) {
    forall a, b :: 0 <= a < b < |goods| ==> goods[a].id != goods[b].id
  }

  /** The catalogue's keys, in order. */
  function Ids(goods: seq<Good>): (r: seq<GoodId>)
    ensures |r| == |goods|
    ensures forall i :: 0 <= i < |goods| ==> r[i] == goods[i].id
    ensures forall g :: g in goods ==> g.id in r
  {
    if |goods| == 0 then [] else [goods[0].id] + Ids(goods[1..])
  }

  /** Dropping the first good of a distinct catalogue leaves a distinct
      catalogue that no longer mentions the first good's id. */
  lemma DistinctTail(goods: seq<Good>)
    requires |goods| > 0 && DistinctIds(goods)
    ensures DistinctIds(goods[1..]) && goods[0].id !in Ids(goods[1..])
  {
    var rest := goods[1..];
    forall a, b | 0 <= a < b < |rest| ensures rest[a].id != rest[b].id {
      assert rest[a] == goods[a + 1] && rest[b] == goods[b + 1];
    }
  }

  predicate SaneCatalog(goods: seq<Good>) {
    && DistinctIds(goods)
    && forall g :: g in goods && g.recipe.Some? ==> SaneRecipe(g.recipe.value)
  }

  /** The goods a settlement may try to make, in catalogue order
      (`is_producible and recipe`). */
  function Producible(goods: seq<Good>): (r: seq<Good>)
    ensures forall g :: g in r <==> g in goods && g.isProducible && g.recipe.Some?
  {
    if |goods| == 0 then []
    else if goods[0].isProducible && goods[0].recipe.Some? then [goods[0]] + Producible(goods[1..])
    else Producible(goods[1..])
  }
}

=== FILE: pricing.dfy ===
/** The pricing phase (`Settlement.update_prices`): each good's local price is
    its base value scaled by a power of the supply/demand ratio, clamped between
    the configured multiples of the base value. The power function (`math.pow`)
    is an argument, so every property here holds whatever curve is used. */
module Pricing {
  import opened Common
  import opened Stocks
  import opened Goods
  import opened Config
  import opened Settlements
  import opened Consumption

  /** The demand a settlement is taken to have for a good: its consumption
      for the goods it eats, and a token 0.01 for the rest. */
  function DemandEstimate(s: Settlement, g: GoodId, rate: real, city: bool): real {
    if Eaten(g, city) then rate * s.population as real * NeedOf(s, g) else 0.01
  }

  function LowerPrice(good: Good, params: Params): real {
    good.baseValue * MinPriceMultiplier(params)
  }

  function UpperPrice(good: Good, params: Params): real {
    good.baseValue * MaxPriceMultiplier(params)
  }

  /** The band is a proper interval: the minimum multiple of the base value
      is not above the maximum one. */
  predicate BandOrdered(good: Good, params: Params) {
    LowerPrice(good, params) <= UpperPrice(good, params)
  }

  /** The supply/demand ratio, each side floored at 0.01. */
  function SupplyRatio(s: Settlement, good: Good, params: Params): real {
    var supply := Max(TotalStored(s, good.id), 0.01);
    var demand := Max(DemandEstimate(s, good.id, ConsumptionRate(params), IsCity(s.population, CityThreshold(params))), 0.01);
    supply / demand
  }

  /** The unclamped price the curve suggests. */
  function CurvePrice(s: Settlement, good: Good, params: Params, pow: (real, real) -> real): real {
    good.baseValue * pow(SupplyRatio(s, good, params), -PriceSensitivity(params))
  }

  /** A good's local price: never below the band, never above it when the band
      is ordered, exactly the curve's price when that lies inside the band, and
      the bound the curve's price reaches or crosses otherwise. */
  function LocalPrice(s: Settlement, good: Good, params: Params, pow: (real, real) -> real): (price: real)
    ensures LowerPrice(good, params) <= price
    ensures BandOrdered(good, params) ==> price <= UpperPrice(good, params)
    ensures LowerPrice(good, params) <= CurvePrice(s, good, params, pow) <= UpperPrice(good, params) ==>
      price == CurvePrice(s, good, params, pow)
    ensures CurvePrice(s, good, params, pow) <= LowerPrice(good, params) ==> price == LowerPrice(good, params)
    ensures BandOrdered(good, params) && UpperPrice(good, params) <= CurvePrice(s, good, params, pow) ==>
      price == UpperPrice(good, params)
  {
    Clamp(CurvePrice(s, good, params, pow), LowerPrice(good, params), UpperPrice(good, params))
  }

  /** A price curve that falls (weakly) as the ratio rises, for the given exponent;
      `x ** -k` with k >= 0 is one. */
  ghost predicate Falling(pow: (real, real) -> real, e: real) {
    forall a, b :: 0.0 < a <= b ==> pow(b, e) <= pow(a, e)
  }

  /** More supply never raises the price: two states of a settlement that differ
      only in storage price a good in reverse order of how much of it they hold. */
  lemma PriceFallsWithSupply(s: Settlement, t: Settlement, good: Good, params: Params, pow: (real, real) -> real)
    requires t == s.(storage := t.storage)
    requires TotalStored(s, good.id) <= TotalStored(t, good.id)
    requires good.baseValue >= 0.0 && Falling(pow, -PriceSensitivity(params))
    ensures LocalPrice(t, good, params, pow) <= LocalPrice(s, good, params, pow)
  {
    CurveFalls(s, t, good, params, pow);
    ClampMonotone(CurvePrice(t, good, params, pow), CurvePrice(s, good, params, pow), LowerPrice(good, params), UpperPrice(good, params));
  }

  /** The unclamped half of the above: the curve's price falls with supply. */
  lemma CurveFalls(s: Settlement, t: Settlement, good: Good, params: Params, pow: (real, real) -> real)
    requires t == s.(storage := t.storage)
    requires TotalStored(s, good.id) <= TotalStored(t, good.id)
    requires good.baseValue >= 0.0 && Falling(pow, -PriceSensitivity(params))
    ensures CurvePrice(t, good, params, pow) <= CurvePrice(s, good, params, pow)
  {
    var rs := SupplyRatio(s, good, params);
    var rt := SupplyRatio(t, good, params);
    RatioRises(s, t, good, params);
    var e := -PriceSensitivity(params);
    assert pow(rt, e) <= pow(rs, e);
    ScaleMonotone(good.baseValue, pow(rt, e), pow(rs, e));
  }

  /** The supply/demand ratio is positive and rises with supply. */
  lemma RatioRises(s: Settlement, t: Settlement, good: Good, params: Params)
    requires t == s.(storage := t.storage)
    requires TotalStored(s, good.id) <= TotalStored(t, good.id)
    ensures 0.0 < SupplyRatio(s, good, params) <= SupplyRatio(t, good, params)
  {
    var demand := Max(DemandEstimate(s, good.id, ConsumptionRate(params), IsCity(s.population, CityThreshold(params))), 0.01);
    assert DemandEstimate(t, good.id, ConsumptionRate(params), IsCity(t.population, CityThreshold(params))) ==
      DemandEstimate(s, good.id, ConsumptionRate(params), IsCity(s.population, CityThreshold(params)));
    DivMonotone(Max(TotalStored(s, good.id), 0.01), Max(TotalStored(t, good.id), 0.01), demand);
  }

  lemma DivMonotone(a: real, b: real, d: real)
    requires 0.0 < a <= b && d > 0.0
    ensures 0.0 < a / d <= b / d
  {
  }

  lemma ScaleMonotone(k: real, a: real, b: real)
    requires k >= 0.0 && a <= b
    ensures k * a <= k * b
  {
  }

  /** Prices every catalogue good in order; entries for other goods are kept. */
  function PriceFrom(s: Settlement, goods: seq<Good>, params: Params, pow: (real, real) -> real, prices: map<GoodId, real>): (r: map<GoodId, real>)
    ensures forall g :: g in goods ==> g.id in r
    ensures forall id :: id !in Ids(goods) ==> (id in r <==> id in prices) && (id in prices ==> r[id] == prices[id])
    decreases |goods|
  {
    if |goods| == 0 then prices
    else PriceFrom(s, goods[1..], params, pow, prices[goods[0].id := LocalPrice(s, goods[0], params, pow)])
  }

  /** With distinct ids, each catalogue good ends up with its own local price. */
  lemma {:induction false} PriceFromSetsLocal(s: Settlement, goods: seq<Good>, params: Params, pow: (real, real) -> real, prices: map<GoodId, real>, k: nat)
    requires DistinctIds(goods) && k < |goods|
    ensures PriceFrom(s, goods, params, pow, prices)[goods[k].id] == LocalPrice(s, goods[k], params, pow)
    decreases |goods|
  {
    var next := prices[goods[0].id := LocalPrice(s, goods[0], params, pow)];
    DistinctTail(goods);
    if k == 0 {
      assert goods[0].id !in Ids(goods[1..]);
    } else {
      assert goods[1..][k - 1] == goods[k];
      PriceFromSetsLocal(s, goods[1..], params, pow, next, k - 1);
    }
  }

  /** `update_prices`: every catalogue good gets a price, and nothing but the
      prices of catalogue goods changes. */
  function UpdatePrices(s: Settlement, goods: seq<Good>, params: Params, pow: (real, real) -> real): (r: Settlement)
    ensures r == s.(prices := r.prices)
    ensures forall g :: g in goods ==> g.id in r.prices
    ensures forall id :: id !in Ids(goods) ==> (id in r.prices <==> id in s.prices) && (id in s.prices ==> r.prices[id] == s.prices[id])
  {
    s.(prices := PriceFrom(s, goods, params, pow, s.prices))
  }

  /** With distinct ids, the price `update_prices` sets for a catalogue good is
      that good's local price, so it lies inside the good's band. */
  lemma PricesInBand(s: Settlement, goods: seq<Good>, params: Params, pow: (real, real) -> real, k: nat)
    requires DistinctIds(goods) && k < |goods|
    ensures var p := UpdatePrices(s, goods, params, pow).prices[goods[k].id];
      && p == LocalPrice(s, goods[k], params, pow)
      && LowerPrice(goods[k], params) <= p
      && (BandOrdered(goods[k], params) ==> p <= UpperPrice(goods[k], params))
  {
    PriceFromSetsLocal(s, goods, params, pow, s.prices, k);
  }
}

=== FILE: production.dfy ===
/** The production phase (`Settlement.produce`): labor is refilled, then in up
    to `max_production_passes` passes every producible good's recipe is tried in
    a shuffled order, stopping early after a pass in which nothing was made.
    The shuffle is an argument: one ordering of the producible goods per pass. */
module Production {
  import opened Common
  import opened Stocks
  import opened Goods
  import opened Settlements

  /** An empty terrain list lets a recipe run anywhere. */
  predicate TerrainAllows(r: Recipe, terrain: string) {
    |r.terrains| == 0 || terrain in r.terrains
  }

  /** Every input is held in at least the amount the recipe asks for. */
  predicate InputsInStock(s: Settlement, inputs: Stock) {
    |inputs| == 0 || (TotalStored(s, inputs[0].good) >= inputs[0].qty && InputsInStock(s, inputs[1..]))
  }

  /** The four guards a recipe must pass before it is attempted. */
  predicate CanFire(s: Settlement, r: Recipe) {
    && TerrainAllows(r, s.terrain)
    && s.labor >= r.labor
    && s.wealth >= r.wealthCost
    && InputsInStock(s, r.inputs)
  }

  /** A settlement part-way through a recipe, the stock levels recorded before
      each step, and whether every step moved (nearly) its full amount. */
  datatype Stage = Stage(settlement: Settlement, snapshot: Stock, ok: bool)

  /** A settlement after one or more recipes were tried, and whether any ran. */
  datatype Firing = Firing(settlement: Settlement, fired: bool)

  /** Stock levels that do not change keep the inputs available. */
  lemma {:induction false} InStockUnaffected(s: Settlement, t: Settlement, inputs: Stock)
    requires InputsInStock(s, inputs)
    requires forall h :: Has(inputs, h) ==> TotalStored(t, h) == TotalStored(s, h)
    ensures InputsInStock(t, inputs)
    decreases |inputs|
  {
    if |inputs| > 0 {
      InStockUnaffected(s, t, inputs[1..]);
    }
  }

  lemma SameStorageSameStock(s: Settlement, t: Settlement)
    requires t.storage == s.storage
    ensures forall h :: TotalStored(t, h) == TotalStored(s, h)
  {
  }

  /** Removes each input in turn; stops at the first one that could not be
      taken (almost) in full. */
  function TakeInputs(s: Settlement, inputs: Stock, snapshot: Stock): (r: Stage)
    ensures r.settlement == s.(storage := r.settlement.storage)
    ensures forall h :: !Has(inputs, h) ==> TotalStored(r.settlement, h) == TotalStored(s, h)
    ensures WellFormed(s.storage) ==> WellFormed(r.settlement.storage)
    ensures NonNegative(inputs) && Valid(s) ==> Valid(r.settlement)
    ensures NonNegative(inputs) && StockOk(s) ==> StorageLoad(r.settlement) <= StorageLoad(s)
    ensures WellFormed(inputs) && WellFormed(s.storage) && InputsInStock(s, inputs) ==>
      && r.ok
      && forall h :: Has(inputs, h) ==>
           TotalStored(r.settlement, h) == Remainder(TotalStored(s, h), Get(inputs, h))
    decreases |inputs|
  {
    if |inputs| == 0 then Stage(s, snapshot, true)
    else
      var e := inputs[0];
      var snapshot' := Put(snapshot, e.good, TotalStored(s, e.good));
      var taken := RemoveFromStorage(s, e.good, e.qty);
      if taken.qty < e.qty * Complete then Stage(taken.settlement, snapshot', false)
      else
        RestInStock(s, inputs);
        TakeInputs(taken.settlement, inputs[1..], snapshot')
  }

  /** Taking the first input leaves the other inputs in stock. */
  lemma RestInStock(s: Settlement, inputs: Stock)
    requires |inputs| > 0
    ensures WellFormed(inputs) && WellFormed(s.storage) && InputsInStock(s, inputs) ==>
      InputsInStock(RemoveFromStorage(s, inputs[0].good, inputs[0].qty).settlement, inputs[1..])
  {
    if WellFormed(inputs) && WellFormed(s.storage) && InputsInStock(s, inputs) {
      InStockUnaffected(s, RemoveFromStorage(s, inputs[0].good, inputs[0].qty).settlement, inputs[1..]);
    }
  }

  /** Stores each output in turn; stops at the first one that could not be
      stored (almost) in full. */
  function PutOutputs(s: Settlement, outputs: Stock, snapshot: Stock): (r: Stage)
    ensures r.settlement == s.(storage := r.settlement.storage)
    ensures forall h :: !Has(outputs, h) ==> TotalStored(r.settlement, h) == TotalStored(s, h)
    ensures WellFormed(s.storage) ==> WellFormed(r.settlement.storage)
    ensures Valid(s) ==> Valid(r.settlement)
    ensures r.ok && WellFormed(outputs) ==>
      forall h :: Has(outputs, h) ==>
        TotalStored(s, h) + Complete * Get(outputs, h) <= TotalStored(r.settlement, h) <= TotalStored(s, h) + Get(outputs, h)
    decreases |outputs|
  {
    if |outputs| == 0 then Stage(s, snapshot, true)
    else
      var e := outputs[0];
      var snapshot' := Put(snapshot, e.good, TotalStored(s, e.good));
      var added := AddToStorage(s, e.good, e.qty);
      if added.qty < e.qty * Complete then Stage(added.settlement, snapshot', false)
      else PutOutputs(added.settlement, outputs[1..], snapshot')
  }

  /** Every amount is above the tolerance, so storing it is never skipped as negligible. */
  predicate AboveDust(st: Stock) {
    |st| == 0 || (st[0].qty > Eps && AboveDust(st[1..]))
  }

  /** Outputs that fit into the free room are all stored in full. */
  lemma {:induction false} OutputsFit(s: Settlement, outputs: Stock, snapshot: Stock)
    requires Valid(s) && NonNegative(outputs) && AboveDust(outputs)
    requires StorageLoad(s) + Load(outputs) <= s.capacity
    ensures PutOutputs(s, outputs, snapshot).ok
    decreases |outputs|
  {
    if |outputs| > 0 {
      var e := outputs[0];
      LoadNonNegative(outputs[1..]);
      assert FreeCapacity(s) >= e.qty;
      var added := AddToStorage(s, e.good, e.qty);
      assert added.qty == e.qty;
      OutputsFit(added.settlement, outputs[1..], Put(snapshot, e.good, TotalStored(s, e.good)));
    }
  }

  /** The forward half of a recipe attempt: labor and wealth are charged, the
      inputs taken, and (if that went through) the outputs stored. */
  datatype Attempt = Attempt(taken: Stage, made: Stage)

  function Run(s: Settlement, r: Recipe): (a: Attempt)
    ensures a.taken.settlement == s.(storage := a.taken.settlement.storage, labor := s.labor - r.labor, wealth := s.wealth - r.wealthCost)
    ensures a.made.settlement == s.(storage := a.made.settlement.storage, labor := s.labor - r.labor, wealth := s.wealth - r.wealthCost)
    ensures forall h :: !Has(r.inputs, h) && !Has(r.outputs, h) ==> TotalStored(a.made.settlement, h) == TotalStored(s, h)
    ensures SaneRecipe(r) && Valid(s) && s.labor >= r.labor ==> Valid(a.made.settlement)
  {
    var working := s.(labor := s.labor - r.labor, wealth := s.wealth - r.wealthCost);
    var taken := TakeInputs(working, r.inputs, []);
    Attempt(taken, PutOutputs(taken.settlement, r.outputs, []))
  }

  /** One recipe attempt. A recipe runs only when its guards hold; if any input
      or output cannot be moved (almost) in full, the attempt is undone and the
      settlement is left exactly as it was. */
  function FireRecipe(s: Settlement, r: Recipe): (f: Firing)
    ensures f.fired ==> CanFire(s, r)
    ensures !f.fired ==> f.settlement == s
    ensures f.fired ==> f.settlement.labor == s.labor - r.labor && f.settlement.wealth == s.wealth - r.wealthCost
    ensures f.settlement == s.(storage := f.settlement.storage, labor := f.settlement.labor, wealth := f.settlement.wealth)
    ensures forall h :: !Has(r.inputs, h) && !Has(r.outputs, h) ==> TotalStored(f.settlement, h) == TotalStored(s, h)
    ensures SaneRecipe(r) && Valid(s) ==> Valid(f.settlement)
    ensures SaneRecipe(r) && Valid(s) && CanFire(s, r) && AboveDust(r.outputs)
      && StorageLoad(s) + Load(r.outputs) <= s.capacity
      ==> f.fired
  {
    if !CanFire(s, r) then Firing(s, false)
    else
      var a := Run(s, r);
      RoomForOutputs(s, r);
      if a.taken.ok && a.made.ok then Firing(a.made.settlement, true) else Firing(s, false)
  }

  /** The two stages of an attempt, spelled out. */
  lemma RunStages(s: Settlement, r: Recipe)
    ensures Run(s, r).taken == TakeInputs(s.(labor := s.labor - r.labor, wealth := s.wealth - r.wealthCost), r.inputs, [])
    ensures Run(s, r).made == PutOutputs(Run(s, r).taken.settlement, r.outputs, [])
  {
  }

  /** For a recipe whose guards hold, taking the inputs goes through and
      leaves a valid settlement that holds no more than before. */
  lemma TakenFits(s: Settlement, r: Recipe)
    requires SaneRecipe(r) && Valid(s) && CanFire(s, r)
    ensures Run(s, r).taken.ok && Valid(Run(s, r).taken.settlement)
    ensures StorageLoad(Run(s, r).taken.settlement) <= StorageLoad(s)
    ensures Run(s, r).taken.settlement.capacity == s.capacity
  {
    var working := s.(labor := s.labor - r.labor, wealth := s.wealth - r.wealthCost);
    assert Valid(working);
    SameStorageSameStock(s, working);
    InStockUnaffected(s, working, r.inputs);
    RunStages(s, r);
  }

  /** A recipe whose guards hold and whose outputs fit into the room the
      settlement has before the attempt goes through: taking the inputs only
      frees room. */
  lemma RoomForOutputs(s: Settlement, r: Recipe)
    ensures SaneRecipe(r) && Valid(s) && CanFire(s, r) && AboveDust(r.outputs)
      && StorageLoad(s) + Load(r.outputs) <= s.capacity
      ==> Run(s, r).taken.ok && Run(s, r).made.ok
  {
    if SaneRecipe(r) && Valid(s) && CanFire(s, r) && AboveDust(r.outputs) && StorageLoad(s) + Load(r.outputs) <= s.capacity {
      TakenFits(s, r);
      var taken := Run(s, r).taken.settlement;
      OutputsFit(taken, r.outputs, []);
      RunStages(s, r);
    }
  }

  /** For a well-formed recipe whose guards hold, taking the inputs never fails,
      and a recipe that runs takes exactly its inputs (down to the dust rule)
      and stores between 99% and all of each output. */
  lemma RecipeEffect(s: Settlement, r: Recipe)
    requires SaneRecipe(r) && Valid(s) && CanFire(s, r)
    ensures Run(s, r).taken.ok
    ensures FireRecipe(s, r).fired ==>
      forall h :: Has(r.inputs, h) && !Has(r.outputs, h) ==>
        TotalStored(FireRecipe(s, r).settlement, h) == Remainder(TotalStored(s, h), Get(r.inputs, h))
    ensures FireRecipe(s, r).fired ==>
      forall h :: Has(r.outputs, h) && !Has(r.inputs, h) ==>
        TotalStored(s, h) + Complete * Get(r.outputs, h) <= TotalStored(FireRecipe(s, r).settlement, h) <= TotalStored(s, h) + Get(r.outputs, h)
  {
    var working := s.(labor := s.labor - r.labor, wealth := s.wealth - r.wealthCost);
    SameStorageSameStock(s, working);
    InStockUnaffected(s, working, r.inputs);
    RunStages(s, r);
    var taken := Run(s, r).taken;
    var made := Run(s, r).made;
    if FireRecipe(s, r).fired {
      assert FireRecipe(s, r).settlement == made.settlement;
      forall h | Has(r.inputs, h) && !Has(r.outputs, h)
        ensures TotalStored(FireRecipe(s, r).settlement, h) == Remainder(TotalStored(s, h), Get(r.inputs, h))
      {
        assert TotalStored(made.settlement, h) == TotalStored(taken.settlement, h);
      }
      forall h | Has(r.outputs, h) && !Has(r.inputs, h)
        ensures TotalStored(s, h) + Complete * Get(r.outputs, h) <= TotalStored(FireRecipe(s, r).settlement, h)
        ensures TotalStored(FireRecipe(s, r).settlement, h) <= TotalStored(s, h) + Get(r.outputs, h)
      {
        assert TotalStored(taken.settlement, h) == TotalStored(s, h);
      }
    }
  }

  /** The source's rollback of consumed inputs: tops each recorded good back
      up to its recorded level through the capacity-bounded `add_to_storage`. */
  function RestoreInputs(s: Settlement, snapshot: Stock): (r: Settlement)
    ensures r == s.(storage := r.storage)
    ensures Valid(s) ==> Valid(r)
    decreases |snapshot|
  {
    if |snapshot| == 0 then s
    else
      var e := snapshot[0];
      var back := e.qty - TotalStored(s, e.good);
      var s' := if back > Eps then AddToStorage(s, e.good, back).settlement else s;
      RestoreInputs(s', snapshot[1..])
  }

  /** The source's rollback of stored outputs: takes each recorded good back
      down to its recorded level. */
  function RetractOutputs(s: Settlement, snapshot: Stock): (r: Settlement)
    ensures r == s.(storage := r.storage)
    ensures Valid(s) ==> Valid(r)
    decreases |snapshot|
  {
    if |snapshot| == 0 then s
    else
      var e := snapshot[0];
      var extra := TotalStored(s, e.good) - e.qty;
      var s' := if extra > Eps then RemoveFromStorage(s, e.good, extra).settlement else s;
      RetractOutputs(s', snapshot[1..])
  }

  /** One recipe attempt exactly as the source writes it: when an output does
      not fit, the inputs are added back before the partial output is taken out
      again, so the inputs compete with that output for the same room. Labor and
      wealth are restored; storage need not be. */
  function FireRecipeAsWritten(s: Settlement, r: Recipe): (f: Firing)
    ensures f.fired == FireRecipe(s, r).fired
    ensures f.fired ==> f == FireRecipe(s, r)
    ensures !f.fired ==> f.settlement.labor == s.labor && f.settlement.wealth == s.wealth
    ensures f.settlement == s.(storage := f.settlement.storage, labor := f.settlement.labor, wealth := f.settlement.wealth)
    ensures SaneRecipe(r) && Valid(s) ==> Valid(f.settlement)
  {
    if !CanFire(s, r) then Firing(s, false)
    else
      var a := Run(s, r);
      if !a.taken.ok then
        Firing(RestoreInputs(a.taken.settlement.(labor := s.labor, wealth := s.wealth), a.taken.snapshot), false)
      else if !a.made.ok then
        var restored := RestoreInputs(a.made.settlement.(labor := s.labor, wealth := s.wealth), a.taken.snapshot);
        Firing(RetractOutputs(restored, a.made.snapshot), false)
      else Firing(a.made.settlement, true)
  }

  /** A full store of 10 ore, a recipe turning 5 ore into 10 tools: the tools
      fill the 5 units the ore left free, the output check fails, the 5 ore
      cannot be put back into the full store, and only then are the tools
      removed. The attempt fails, and 5 ore are gone. */
  lemma RollbackLosesInputs()
    ensures
      var s := Settlement("A", "Mine", 1, "Hills", [Entry("ore", 10.0)], 10.0, 5.0, 5.0, map[], map[], 0.0, 1, []);
      var r := Recipe([Entry("ore", 5.0)], [Entry("tools", 10.0)], 1.0, [], 0.0);
      var f := FireRecipeAsWritten(s, r);
      && Valid(s) && SaneRecipe(r)
      && !f.fired
      && TotalStored(s, "ore") == 10.0
      && TotalStored(f.settlement, "ore") == 5.0
      && TotalStored(f.settlement, "tools") == 0.0
  {
    var s := Settlement("A", "Mine", 1, "Hills", [Entry("ore", 10.0)], 10.0, 5.0, 5.0, map[], map[], 0.0, 1, []);
    var r := Recipe([Entry("ore", 5.0)], [Entry("tools", 10.0)], 1.0, [], 0.0);
    var working := s.(labor := 4.0);
    assert CanFire(s, r);
    var taken := RemoveFromStorage(working, "ore", 5.0);
    assert taken.settlement.storage == [Entry("ore", 5.0)];
    assert TakeInputs(working, r.inputs, []) == Stage(taken.settlement, [Entry("ore", 10.0)], true);
    var added := AddToStorage(taken.settlement, "tools", 10.0);
    assert added.qty == 5.0;
    assert added.settlement.storage == [Entry("ore", 5.0), Entry("tools", 5.0)];
    var made := PutOutputs(taken.settlement, r.outputs, []);
    assert made == Stage(added.settlement, [Entry("tools", 0.0)], false);
    var back := added.settlement.(labor := 5.0, wealth := 0.0);
    assert FreeCapacity(back) == 0.0;
    assert RestoreInputs(back, [Entry("ore", 10.0)]) == back;
    var out := RemoveFromStorage(back, "tools", 5.0);
    assert out.settlement.storage == [Entry("ore", 5.0)];
    assert RetractOutputs(back, [Entry("tools", 0.0)]) == out.settlement;
  }

  /** The first good of `order` has a recipe, and it fires on `s`. */
  predicate OpensWith(s: Settlement, order: seq<Good>) {
    |order| > 0 && order[0].recipe.Some? && FireRecipe(s, order[0].recipe.value).fired
  }

  /** Every recipe of the goods in `order` is well formed. */
  predicate SaneOrder(order: seq<Good>) {
    forall g :: g in order && g.recipe.Some? ==> SaneRecipe(g.recipe.value)
  }

  /** Tries every good of one shuffled order once. When the first recipe
      fires, the pass spends at least its labor and wealth cost. */
  function RunOrder(s: Settlement, order: seq<Good>): (f: Firing)
    ensures !f.fired ==> f.settlement == s
    ensures OpensWith(s, order) ==> f.fired
    ensures SaneOrder(order) && OpensWith(s, order) ==>
      && f.settlement.labor <= s.labor - order[0].recipe.value.labor
      && f.settlement.wealth <= s.wealth - order[0].recipe.value.wealthCost
    ensures f.settlement == s.(storage := f.settlement.storage, labor := f.settlement.labor, wealth := f.settlement.wealth)
    ensures s.wealth >= 0.0 ==> f.settlement.wealth >= 0.0
    ensures s.labor >= 0.0 ==> f.settlement.labor >= 0.0
    ensures SaneOrder(order) ==>
      f.settlement.wealth <= s.wealth && f.settlement.labor <= s.labor && (Valid(s) ==> Valid(f.settlement))
    decreases |order|
  {
    if |order| == 0 then Firing(s, false)
    else
      var first := if order[0].recipe.Some? then FireRecipe(s, order[0].recipe.value) else Firing(s, false);
      var rest := RunOrder(first.settlement, order[1..]);
      Firing(rest.settlement, first.fired || rest.fired)
  }

  /** One shuffled order of the producible goods for every pass. */
  predicate ShufflesFit(goods: seq<Good>, passes: int, shuffles: seq<seq<Good>>) {
    && |shuffles| == Times(passes)
    && forall p :: 0 <= p < |shuffles| ==> multiset(shuffles[p]) == multiset(Producible(goods))
  }

  /** Every good a shuffle lists comes from the catalogue. */
  lemma ShuffledFromCatalog(goods: seq<Good>, order: seq<Good>)
    requires multiset(order) == multiset(Producible(goods))
    ensures forall g :: g in order ==> g in goods
  {
    forall g | g in order
      ensures g in goods
    {
      assert g in multiset(order);
      assert g in multiset(Producible(goods));
    }
  }

  function RunPasses(s: Settlement, goods: seq<Good>, shuffles: seq<seq<Good>>, p: nat): (r: Settlement)
    requires forall q :: 0 <= q < |shuffles| ==> multiset(shuffles[q]) == multiset(Producible(goods))
    ensures r == s.(storage := r.storage, labor := r.labor, wealth := r.wealth)
    ensures s.wealth >= 0.0 ==> r.wealth >= 0.0
    ensures s.labor >= 0.0 ==> r.labor >= 0.0
    ensures SaneCatalog(goods) ==> r.wealth <= s.wealth && r.labor <= s.labor && (Valid(s) ==> Valid(r))
    ensures p < |shuffles| && !RunOrder(s, shuffles[p]).fired ==> r == s
    ensures SaneCatalog(goods) && p < |shuffles| && OpensWith(s, shuffles[p]) ==>
      && r.labor <= s.labor - shuffles[p][0].recipe.value.labor
      && r.wealth <= s.wealth - shuffles[p][0].recipe.value.wealthCost
    decreases |shuffles| - p
  {
    if p >= |shuffles| || |Producible(goods)| == 0 then s
    else
      ShuffledFromCatalog(goods, shuffles[p]);
      var f := RunOrder(s, shuffles[p]);
      if !f.fired then f.settlement else RunPasses(f.settlement, goods, shuffles, p + 1)
  }

  /** `produce`: refills labor, then runs the passes. */
  function Produce(s: Settlement, goods: seq<Good>, passes: int, shuffles: seq<seq<Good>>): (r: Settlement)
    requires ShufflesFit(goods, passes, shuffles)
    ensures r == s.(storage := r.storage, labor := r.labor, wealth := r.wealth)
    ensures s.maxLabor >= 0.0 ==> r.labor >= 0.0
    ensures SaneCatalog(goods) ==> r.labor <= s.maxLabor
    ensures s.wealth >= 0.0 ==> r.wealth >= 0.0
    ensures SaneCatalog(goods) ==> r.wealth <= s.wealth
    ensures SaneCatalog(goods) && Valid(s) ==> Valid(r)
    ensures passes <= 0 || |Producible(goods)| == 0 ==> r == s.(labor := s.maxLabor)
    ensures SaneCatalog(goods) && passes > 0 && OpensWith(s.(labor := s.maxLabor), shuffles[0]) ==>
      && r.labor <= s.maxLabor - shuffles[0][0].recipe.value.labor
      && r.wealth <= s.wealth - shuffles[0][0].recipe.value.wealthCost
  {
    RunPasses(s.(labor := s.maxLabor), goods, shuffles, 0)
  }

  /** The labor pool is refilled at the start: what was left over from the
      previous tick has no effect on what is produced. */
  lemma ProduceIgnoresLeftoverLabor(s: Settlement, leftover: real, goods: seq<Good>, passes: int, shuffles: seq<seq<Good>>)
    requires ShufflesFit(goods, passes, shuffles)
    ensures Produce(s.(labor := leftover), goods, passes, shuffles) == Produce(s, goods, passes, shuffles)
  {
    assert s.(labor := leftover).(labor := s.maxLabor) == s.(labor := s.maxLabor);
  }
}

=== FILE: settlement.dfy ===
/** A settlement's state and its storage primitives (`Settlement.__init__`,
    `add_log`, `get_total_stored`, `get_current_storage_load`,
    `add_to_storage`, `remove_from_storage`). */
module Settlements {
  import opened Common
  import opened Stocks

  /** How many entries a settlement log, and the world's recent-trade log, keep. */
  const LogLimit: nat := 10

  /** The events a settlement writes to its own log. */
  datatype Note =
    | ReturnedToSeller(buyer: string, qty: real, good: string)
    | RejectedByBuyer(seller: string)

  /** `f"T{tick}: {message}"` */
  datatype LogEntry = LogEntry(tick: int, note: Note)

  datatype Settlement = Settlement(
    id: string,
    name: string,
    population: nat,
    terrain: string,
    storage: Stock,
    capacity: real,
    maxLabor: real,
    labor: real,
    needs: map<GoodId, real>,
    prices: map<GoodId, real>,
    wealth: real,
    marketLevel: int,
    log: seq<LogEntry>)

  predicate IsCity(population: int, threshold: int) {
    population >= threshold
  }

  /** Storage holds no negative amount, no good twice, and no more than the capacity. */
  predicate StockOk(s: Settlement) {
    WellFormed(s.storage) && Load(s.storage) <= s.capacity
  }

  /** The invariant every phase of a tick preserves. */
  predicate Valid(s: Settlement) {
    && StockOk(s)
    && |s.log| <= LogLimit
    && 0.0 <= s.labor <= s.maxLabor
  }

  /** Two states of one settlement that differ at most in storage, wealth and log. */
  predicate SameShape(a: Settlement, b: Settlement) {
    a == b.(storage := a.storage, wealth := a.wealth, log := a.log)
  }

  /** A new settlement; a city (population at or above the threshold) gets its
      per-capita storage scaled by the city multiplier. */
  function Create(id: string, name: string, population: nat, terrain: string,
                  capacityPerPop: real, laborPerPop: real, defaultWealth: real,
                  cityThreshold: int, cityMultiplier: real,
                  initialWealth: Option<real>): (s: Settlement)
    ensures s.storage == [] && s.log == [] && s.marketLevel == 1
    ensures s.labor == s.maxLabor == population as real * laborPerPop
    ensures s.wealth == initialWealth.GetOr(defaultWealth)
    ensures IsCity(population, cityThreshold) ==> s.capacity == cityMultiplier * (population as real * capacityPerPop)
    ensures !IsCity(population, cityThreshold) ==> s.capacity == population as real * capacityPerPop
    ensures capacityPerPop >= 0.0 && laborPerPop >= 0.0 && cityMultiplier >= 0.0 ==> Valid(s)
  {
    var base := population as real * capacityPerPop;
    var capacity := if IsCity(population, cityThreshold) then base * cityMultiplier else base;
    var labor := population as real * laborPerPop;
    Settlement(id, name, population, terrain, [], capacity, labor, labor,
               map[], map[], initialWealth.GetOr(defaultWealth), 1, [])
  }

  /** Growing past the city threshold never shrinks storage, as long as the
      city multiplier is at least one. */
  lemma CapacityGrowsWithPopulation(p: nat, q: nat, capacityPerPop: real, threshold: int, cityMultiplier: real)
    requires p <= q && capacityPerPop >= 0.0 && cityMultiplier >= 1.0
    ensures Create("", "", p, "", capacityPerPop, 0.0, 0.0, threshold, cityMultiplier, None).capacity
         <= Create("", "", q, "", capacityPerPop, 0.0, 0.0, threshold, cityMultiplier, None).capacity
  {
    var bp := p as real * capacityPerPop;
    var bq := q as real * capacityPerPop;
    ScaleUp(p as real, q as real, capacityPerPop);
    CityGrowth(bp, bq, cityMultiplier, IsCity(p, threshold), IsCity(q, threshold));
  }

  /** A city's multiplied capacity against a town's plain one. */
  lemma CityGrowth(bp: real, bq: real, cityMultiplier: real, cityP: bool, cityQ: bool)
    requires 0.0 <= bp <= bq && cityMultiplier >= 1.0 && (cityP ==> cityQ)
    ensures (if cityP then cityMultiplier * bp else bp) <= (if cityQ then cityMultiplier * bq else bq)
  {
    if cityP {
      MulMonotone(cityMultiplier, bp, bq);
    } else if cityQ {
      ScaleUp(1.0, cityMultiplier, bq);
    }
  }

  lemma ScaleUp(a: real, b: real, k: real)
    requires 0.0 <= k && 0.0 <= a <= b
    ensures 0.0 <= a * k <= b * k
  {
  }

  lemma MulMonotone(k: real, a: real, b: real)
    requires 0.0 <= k && 0.0 <= a <= b
    ensures 0.0 <= k * a <= k * b
  {
  }

  /** The last `n` entries of a log, oldest first. */
  function Newest<T>(log: seq<T>, n: nat): (r: seq<T>)
    ensures |r| == if |log| < n then |log| else n
    ensures r == log[|log| - |r|..]
  {
    if |log| <= n then log else log[|log| - n..]
  }

  /** Appends an entry and keeps only the `LogLimit` newest, newest last. */
  function AddLog(s: Settlement, note: Note, tick: int): (r: Settlement)
    ensures r == s.(log := r.log)
    ensures |r.log| <= LogLimit
    ensures |r.log| == if |s.log| < LogLimit then |s.log| + 1 else LogLimit
    ensures r.log[|r.log| - 1] == LogEntry(tick, note)
    ensures forall i :: 0 <= i < |r.log| - 1 ==> r.log[i] == s.log[|s.log| - (|r.log| - 1) + i]
    ensures Valid(s) ==> Valid(r)
  {
    s.(log := Newest(s.log + [LogEntry(tick, note)], LogLimit))
  }

  /** However many entries are added one by one, the log ends up holding
      exactly the `LogLimit` newest of all entries ever written, in order. */
  lemma {:induction false} AddLogKeepsNewest(s: Settlement, notes: seq<(Note, int)>)
    requires |s.log| <= LogLimit
    ensures AddLogs(s, notes).log == Newest(s.log + Entries(notes), LogLimit)
    decreases |notes|
  {
    if |notes| > 0 {
      var s1 := AddLog(s, notes[0].0, notes[0].1);
      var e := LogEntry(notes[0].1, notes[0].0);
      AddLogsStep(s, notes);
      AddLogKeepsNewest(s1, notes[1..]);
      NewestOfNewest(s.log + [e], Entries(notes[1..]), LogLimit);
      EntriesStep(s.log, notes);
    } else {
      assert s.log + Entries(notes) == s.log;
    }
  }

  lemma AddLogsStep(s: Settlement, notes: seq<(Note, int)>)
    requires |notes| > 0
    ensures var s1 := AddLog(s, notes[0].0, notes[0].1);
      && AddLogs(s, notes) == AddLogs(s1, notes[1..])
      && s1.log == Newest(s.log + [LogEntry(notes[0].1, notes[0].0)], LogLimit)
      && |s1.log| <= LogLimit
  {
  }

  lemma EntriesStep(log: seq<LogEntry>, notes: seq<(Note, int)>)
    requires |notes| > 0
    ensures log + [LogEntry(notes[0].1, notes[0].0)] + Entries(notes[1..]) == log + Entries(notes)
  {
    assert Entries(notes) == [LogEntry(notes[0].1, notes[0].0)] + Entries(notes[1..]);
  }

  /** Trimming before appending more entries and trimming afterwards agree. */
  lemma NewestOfNewest<T>(a: seq<T>, b: seq<T>, n: nat)
    ensures Newest(Newest(a, n) + b, n) == Newest(a + b, n)
  {
    if |a| > n {
      var m := |a| - n;
      var c := a[m..] + b;
      assert Newest(a, n) == a[m..];
      assert c == (a + b)[m..];
      assert Newest(c, n) == c[|b|..];
      assert Newest(a + b, n) == (a + b)[m + |b|..];
      assert c[|b|..] == (a + b)[m + |b|..];
    } else {
      assert Newest(a, n) == a;
    }
  }

  function AddLogs(s: Settlement, notes: seq<(Note, int)>): Settlement
    decreases |notes|
  {
    if |notes| == 0 then s else AddLogs(AddLog(s, notes[0].0, notes[0].1), notes[1..])
  }

  function Entries(notes: seq<(Note, int)>): seq<LogEntry> {
    if |notes| == 0 then [] else [LogEntry(notes[0].1, notes[0].0)] + Entries(notes[1..])
  }

  /** `get_total_stored`: how much of one good the settlement holds. */
  function TotalStored(s: Settlement, g: GoodId): (r: real)
    ensures !Has(s.storage, g) ==> r == 0.0
    ensures StockOk(s) ==> 0.0 <= r <= StorageLoad(s)
  {
    AbsentIsZero(s.storage, g);
    GetWithinLoad(s.storage, g);
    Get(s.storage, g)
  }

  /** `get_current_storage_load`: everything the settlement holds. */
  function StorageLoad(s: Settlement): (r: real)
    ensures StockOk(s) ==> 0.0 <= r <= s.capacity
  {
    LoadNonNegative(s.storage);
    Load(s.storage)
  }

  /** The room left in storage, never negative. */
  function FreeCapacity(s: Settlement): real {
    Max(0.0, s.capacity - StorageLoad(s))
  }

  /** A settlement after a storage operation, with the amount that moved. */
  datatype Moved = Moved(settlement: Settlement, qty: real)

  /** `add_to_storage` for a bulk good: stores as much of `q` as fits, and
      nothing when the room or the amount is negligible. */
  function AddToStorage(s: Settlement, g: GoodId, q: real): (r: Moved)
    ensures 0.0 <= r.qty <= FreeCapacity(s)
    ensures r.qty <= q || r.qty == 0.0
    ensures r.qty == 0.0 <==> FreeCapacity(s) <= Eps || q <= Eps
    ensures r.qty > 0.0 ==> r.qty == q || r.qty == FreeCapacity(s)
    ensures TotalStored(r.settlement, g) == TotalStored(s, g) + r.qty
    ensures forall h :: h != g ==> TotalStored(r.settlement, h) == TotalStored(s, h)
    ensures StorageLoad(r.settlement) == StorageLoad(s) + r.qty
    ensures r.settlement == s.(storage := r.settlement.storage)
    ensures StockOk(s) ==> StorageLoad(r.settlement) <= s.capacity
    ensures Valid(s) ==> Valid(r.settlement)
  {
    var free := FreeCapacity(s);
    if free <= Eps then Moved(s, 0.0)
    else
      var amount := Min(q, free);
      if amount > Eps then
        var st := s.storage;
        GetWithinLoad(st, g);
        Moved(s.(storage := Put(st, g, Get(st, g) + amount)), amount)
      else Moved(s, 0.0)
  }

  /** What is left of `stored` after taking `q`: a remainder below the
      tolerance is discarded with its dict entry. */
  function Remainder(stored: real, q: real): real {
    if stored - q < Eps then 0.0 else stored - q
  }

  /** `remove_from_storage` for a bulk good: takes at most `q` and at most what is
      held, deleting the entry once what remains is negligible. */
  function RemoveFromStorage(s: Settlement, g: GoodId, q: real): (r: Moved)
    ensures r.qty <= q || r.qty == 0.0
    ensures r.qty <= TotalStored(s, g)
    ensures 0.0 <= q <= TotalStored(s, g) ==> r.qty == q
    ensures Distinct(s.storage) ==> r.qty == q || TotalStored(r.settlement, g) == 0.0
    ensures Distinct(s.storage) ==> TotalStored(r.settlement, g) == Remainder(TotalStored(s, g), r.qty)
    ensures Distinct(s.storage) && TotalStored(r.settlement, g) < Eps ==> !Has(r.settlement.storage, g)
    ensures forall h :: h != g ==> TotalStored(r.settlement, h) == TotalStored(s, h)
    ensures r.settlement == s.(storage := r.settlement.storage)
    ensures q >= 0.0 && StockOk(s) ==> 0.0 <= r.qty && StorageLoad(r.settlement) <= StorageLoad(s) - r.qty
    ensures WellFormed(s.storage) ==> WellFormed(r.settlement.storage)
    ensures q >= 0.0 && Valid(s) ==> Valid(r.settlement)
  {
    var st := s.storage;
    AbsentIsZero(st, g);
    if Has(st, g) then
      var take := Min(q, Get(st, g));
      var left := Get(st, g) - take;
      if left < Eps then
        Moved(s.(storage := Drop(st, g)), take)
      else
        Moved(s.(storage := Put(st, g, left)), take)
    else Moved(s, 0.0)
  }
}

=== FILE: simulation.dfy ===
/** One tick of the world (`World.simulation_step`): the tick counter
    advances; every settlement produces, then every settlement consumes, then
    every settlement reprices; trade opportunities are found and, if there
    are any, executed; finally, when storage has a cost, every settlement
    pays upkeep on what it holds. The tick's randomness — each settlement's
    shuffled production orders and consumption jitter — and the power
    function of the price curve are arguments. */
module Simulation {
  import opened Common
  import opened Stocks
  import opened Goods
  import opened Config
  import opened Settlements
  import opened Production
  import opened Consumption
  import opened Pricing
  import opened Discovery
  import opened WorldState
  import opened Execution

  /** The tick's random draws, one entry per settlement, and the price curve. */
  datatype Dice = Dice(shuffles: seq<seq<seq<Good>>>, jitter: seq<seq<real>>, pow: (real, real) -> real)

  /** The draws fit the world: one shuffle per production pass of the
      producible goods, and one jitter factor in [0.9, 1.1] per catalogue good. */
  predicate DiceFit(w: World, dice: Dice) {
    && |dice.shuffles| == |w.settlements| && |dice.jitter| == |w.settlements|
    && (forall i :: 0 <= i < |w.settlements| ==> ShufflesFit(w.goods, ProductionPasses(w.params), dice.shuffles[i]))
    && (forall i :: 0 <= i < |w.settlements| ==> JitterFits(w.goods, dice.jitter[i]))
  }

  /** Storage upkeep for one settlement: the load times the rate, paid only
      when positive. Only wealth changes and it never rises; with a positive
      rate and a positive load the full charge is paid, and a settlement may
      go into debt doing so. */
  function Upkeep(s: Settlement, rate: real): (r: Settlement)
    ensures r == s.(wealth := r.wealth)
    ensures r.wealth <= s.wealth
    ensures rate > 0.0 && StorageLoad(s) > 0.0 ==> r.wealth == s.wealth - StorageLoad(s) * rate
    ensures rate <= 0.0 && StorageLoad(s) >= 0.0 ==> r == s
    ensures Valid(s) ==> Valid(r)
  {
    var upkeep := StorageLoad(s) * rate;
    ProductSign(StorageLoad(s), rate);
    if upkeep > 0.0 then s.(wealth := s.wealth - upkeep) else s
  }

  /** The sign of the upkeep charge follows the signs of load and rate. */
  lemma ProductSign(a: real, b: real)
    ensures a > 0.0 && b > 0.0 ==> a * b > 0.0
    ensures a >= 0.0 && b <= 0.0 ==> a * b <= 0.0
  {
    if a > 0.0 && b > 0.0 {
      assert a * b > 0.0;
    }
  }

  /** Every catalogue good is priced inside its band, in every settlement. */
  predicate PricedInBand(ss: seq<Settlement>, goods: seq<Good>, params: Params) {
    forall i, k :: 0 <= i < |ss| && 0 <= k < |goods| ==>
      && goods[k].id in ss[i].prices
      && LowerPrice(goods[k], params) <= ss[i].prices[goods[k].id]
      && (BandOrdered(goods[k], params) ==> ss[i].prices[goods[k].id] <= UpperPrice(goods[k], params))
  }

  /** Being priced inside the band depends on the prices alone. */
  lemma PricedInBandCarries(a: seq<Settlement>, b: seq<Settlement>, goods: seq<Good>, params: Params)
    requires |a| == |b| && forall i :: 0 <= i < |a| ==> b[i].prices == a[i].prices
    requires PricedInBand(a, goods, params)
    ensures PricedInBand(b, goods, params)
  {
    forall i, k | 0 <= i < |b| && 0 <= k < |goods|
      ensures goods[k].id in b[i].prices
    {
      assert b[i].prices == a[i].prices;
    }
  }

  /** The production phase, one settlement after another: production changes
      only storage, labour and wealth, and with a sane catalogue it never adds
      wealth and keeps every settlement valid. A settlement whose first
      shuffled recipe fires on the refilled labor pays at least that recipe's
      cost. */
  function ProducePhase(w: World, dice: Dice): (ss: seq<Settlement>)
    requires DiceFit(w, dice)
    ensures |ss| == |w.settlements|
    ensures forall i :: 0 <= i < |ss| ==>
      ss[i] == w.settlements[i].(storage := ss[i].storage, labor := ss[i].labor, wealth := ss[i].wealth)
    ensures SaneCatalog(w.goods) ==> TotalWealth(ss) <= TotalWealth(w.settlements)
    ensures SaneCatalog(w.goods) && AllValid(w.settlements) ==> AllValid(ss)
    ensures SaneCatalog(w.goods) && ProductionPasses(w.params) > 0 ==>
      forall i :: 0 <= i < |ss| && OpensWith(w.settlements[i].(labor := w.settlements[i].maxLabor), dice.shuffles[i][0]) ==>
        && ss[i].labor <= w.settlements[i].maxLabor - dice.shuffles[i][0][0].recipe.value.labor
        && ss[i].wealth <= w.settlements[i].wealth - dice.shuffles[i][0][0].recipe.value.wealthCost
  {
    var ss := seq(|w.settlements|, i requires 0 <= i < |w.settlements| =>
      Produce(w.settlements[i], w.goods, ProductionPasses(w.params), dice.shuffles[i]));
    if SaneCatalog(w.goods) then TotalWealthMonotone(ss, w.settlements); ss else ss
  }

  /** The consumption phase: only storage changes, no stock grows, every
      eaten good's demand is met where the stock covers it, and validity is kept. */
  function ConsumePhase(ss0: seq<Settlement>, goods: seq<Good>, params: Params, jitter: seq<seq<real>>): (ss: seq<Settlement>)
    requires |jitter| == |ss0| && forall i :: 0 <= i < |ss0| ==> JitterFits(goods, jitter[i])
    ensures |ss| == |ss0|
    ensures forall i :: 0 <= i < |ss| ==> ss[i] == ss0[i].(storage := ss[i].storage)
    ensures forall i, h :: 0 <= i < |ss| && WellFormed(ss0[i].storage) ==> TotalStored(ss[i], h) <= TotalStored(ss0[i], h)
    ensures DistinctIds(goods) ==>
      forall i, k ::
        0 <= i < |ss| && 0 <= k < |goods| && JitterFits(goods, jitter[i]) && WellFormed(ss0[i].storage) &&
        Eaten(goods[k].id, IsCity(ss0[i].population, CityThreshold(params))) ==>
          DemandMet(ss0[i], ss[i], goods[k].id, Wanted(ss0[i], goods[k].id, ConsumptionRate(params), jitter[i][k]))
    ensures TotalWealth(ss) == TotalWealth(ss0)
    ensures AllValid(ss0) ==> AllValid(ss)
  {
    var ss := seq(|ss0|, i requires 0 <= i < |ss0| => Consume(ss0[i], goods, params, jitter[i]));
    TotalWealthMonotone(ss, ss0);
    TotalWealthMonotone(ss0, ss);
    ss
  }

  /** The pricing phase: only prices change, and with distinct ids every
      catalogue good ends up priced inside its band. */
  function PricePhase(ss0: seq<Settlement>, goods: seq<Good>, params: Params, pow: (real, real) -> real): (ss: seq<Settlement>)
    ensures |ss| == |ss0|
    ensures forall i :: 0 <= i < |ss| ==> ss[i] == ss0[i].(prices := ss[i].prices)
    ensures TotalWealth(ss) == TotalWealth(ss0)
    ensures DistinctIds(goods) ==> PricedInBand(ss, goods, params)
  {
    var ss := seq(|ss0|, i requires 0 <= i < |ss0| => UpdatePrices(ss0[i], goods, params, pow));
    TotalWealthMonotone(ss, ss0);
    TotalWealthMonotone(ss0, ss);
    PricePhaseInBand(ss0, goods, params, pow, ss);
    ss
  }

  lemma PricePhaseInBand(ss0: seq<Settlement>, goods: seq<Good>, params: Params, pow: (real, real) -> real, ss: seq<Settlement>)
    requires |ss| == |ss0| && forall i :: 0 <= i < |ss0| ==> ss[i] == UpdatePrices(ss0[i], goods, params, pow)
    ensures DistinctIds(goods) ==> PricedInBand(ss, goods, params)
  {
    if DistinctIds(goods) {
      forall j, k | 0 <= j < |ss| && 0 <= k < |goods|
        ensures goods[k].id in ss[j].prices
        ensures LowerPrice(goods[k], params) <= ss[j].prices[goods[k].id]
        ensures BandOrdered(goods[k], params) ==> ss[j].prices[goods[k].id] <= UpperPrice(goods[k], params)
      {
        PricesInBand(ss0[j], goods, params, pow, k);
      }
    }
  }

  /** The upkeep phase, charged only when storage has a positive cost: only
      wealth changes, and it never rises. */
  function UpkeepPhase(ss0: seq<Settlement>, rate: real): (ss: seq<Settlement>)
    ensures |ss| == |ss0|
    ensures forall i :: 0 <= i < |ss| ==> ss[i] == ss0[i].(wealth := ss[i].wealth) && ss[i].wealth <= ss0[i].wealth
    ensures rate <= 0.0 ==> ss == ss0
    ensures TotalWealth(ss) <= TotalWealth(ss0)
    ensures AllValid(ss0) ==> AllValid(ss)
  {
    if rate <= 0.0 then ss0
    else
      var ss := seq(|ss0|, i requires 0 <= i < |ss0| => Upkeep(ss0[i], rate));
      TotalWealthMonotone(ss, ss0);
      ss
  }

  /** What consumption did, measured from `ss0` to `ss`, survives a phase
      that changes only prices. */
  lemma ConsumptionSurvivesPricing(ss0: seq<Settlement>, mid: seq<Settlement>, ss: seq<Settlement>,
                                   goods: seq<Good>, params: Params, jitter: seq<seq<real>>)
    requires |mid| == |ss0| && |ss| == |ss0| && |jitter| == |ss0|
    requires forall i :: 0 <= i < |ss0| ==> JitterFits(goods, jitter[i])
    requires forall i :: 0 <= i < |ss0| ==> ss[i] == mid[i].(prices := ss[i].prices)
    requires forall i, h :: 0 <= i < |mid| && WellFormed(ss0[i].storage) ==> TotalStored(mid[i], h) <= TotalStored(ss0[i], h)
    requires DistinctIds(goods) ==>
      forall i, k ::
        0 <= i < |mid| && 0 <= k < |goods| && JitterFits(goods, jitter[i]) && WellFormed(ss0[i].storage) &&
        Eaten(goods[k].id, IsCity(ss0[i].population, CityThreshold(params))) ==>
          DemandMet(ss0[i], mid[i], goods[k].id, Wanted(ss0[i], goods[k].id, ConsumptionRate(params), jitter[i][k]))
    ensures forall i, h :: 0 <= i < |ss| && WellFormed(ss0[i].storage) ==> TotalStored(ss[i], h) <= TotalStored(ss0[i], h)
    ensures DistinctIds(goods) ==>
      forall i, k ::
        0 <= i < |ss| && 0 <= k < |goods| && JitterFits(goods, jitter[i]) && WellFormed(ss0[i].storage) &&
        Eaten(goods[k].id, IsCity(ss0[i].population, CityThreshold(params))) ==>
          DemandMet(ss0[i], ss[i], goods[k].id, Wanted(ss0[i], goods[k].id, ConsumptionRate(params), jitter[i][k]))
  {
    forall i, h | 0 <= i < |ss|
      ensures TotalStored(ss[i], h) == TotalStored(mid[i], h)
    {
      assert ss[i].storage == mid[i].storage;
    }
  }

  /** The settlements after production, consumption and pricing: what the
      market of the tick trades between. Measured against the stock
      production left, no stock grows, and with distinct ids every eaten
      good's demand is met where the stock covers it and the good is used up
      where a stock above 0.01 falls short. */
  function Prepared(w: World, dice: Dice): (ss: seq<Settlement>)
    requires DiceFit(w, dice)
    ensures |ss| == |w.settlements|
    ensures SaneCatalog(w.goods) ==> TotalWealth(ss) <= TotalWealth(w.settlements)
    ensures SaneCatalog(w.goods) && AllValid(w.settlements) ==> AllValid(ss)
    ensures DistinctIds(w.goods) ==> PricedInBand(ss, w.goods, w.params)
    ensures var produced := ProducePhase(w, dice);
      forall i, h :: 0 <= i < |ss| && WellFormed(produced[i].storage) ==> TotalStored(ss[i], h) <= TotalStored(produced[i], h)
    ensures var produced := ProducePhase(w, dice);
      DistinctIds(w.goods) ==>
        forall i, k ::
          0 <= i < |ss| && 0 <= k < |w.goods| && WellFormed(produced[i].storage) &&
          Eaten(w.goods[k].id, IsCity(produced[i].population, CityThreshold(w.params))) ==>
            DemandMet(produced[i], ss[i], w.goods[k].id, Wanted(produced[i], w.goods[k].id, ConsumptionRate(w.params), dice.jitter[i][k]))
  {
    var produced := ProducePhase(w, dice);
    var consumed := ConsumePhase(produced, w.goods, w.params, dice.jitter);
    var ss := PricePhase(consumed, w.goods, w.params, dice.pow);
    ConsumptionSurvivesPricing(produced, consumed, ss, w.goods, w.params, dice.jitter);
    ss
  }

  /** Opportunities found in a list of settlements name two different
      settlements of that list. */
  lemma FoundAreAddressed(ss: seq<Settlement>, goods: seq<Good>, threshold: real)
    ensures Addressed(|ss|, FindOpportunities(ss, goods, threshold))
  {
    var opps := FindOpportunities(ss, goods, threshold);
    forall k | 0 <= k < |opps|
      ensures opps[k].seller < |ss| && opps[k].buyer < |ss| && opps[k].seller != opps[k].buyer
    {
      assert opps[k] in opps;
    }
  }

  /** The market of one tick: find the opportunities and, only when there are
      some, execute them. With none, nothing changes — in particular the
      record of the previous tick's trades is left in place. Otherwise the
      settlements and the records are those of trading the opportunities in
      order, up to max_trades_per_tick completed trades. */
  method Market(w: World) returns (r: World)
    ensures r == w.(settlements := r.settlements, recentTrades := r.recentTrades, executed := r.executed)
    ensures FindOpportunities(w.settlements, w.goods, ProfitThreshold(w.params)) == [] ==> r == w
    ensures var opps := FindOpportunities(w.settlements, w.goods, ProfitThreshold(w.params));
      opps != [] ==>
        && Addressed(|w.settlements|, opps)
        && r.settlements == Trades(w.settlements, opps, 0, w.tick, Times(MaxTrades(w.params))).settlements
        && r.executed == Trades(w.settlements, opps, 0, w.tick, Times(MaxTrades(w.params))).records
        && r.recentTrades == Recent(r.executed, w.recentTrades)
    ensures FindOpportunities(w.settlements, w.goods, ProfitThreshold(w.params)) != [] ==>
      |r.executed| <= Times(MaxTrades(w.params)) && forall i :: 0 <= i < |r.executed| ==> r.executed[i].tick == w.tick
    ensures |r.settlements| == |w.settlements|
    ensures forall i :: 0 <= i < |w.settlements| ==> SameShape(r.settlements[i], w.settlements[i])
    ensures forall i :: 0 <= i < |w.settlements| ==> r.settlements[i].prices == w.settlements[i].prices
    ensures TotalWealth(r.settlements) == TotalWealth(w.settlements)
    ensures WorldValid(w) ==> WorldValid(r)
  {
    var opps := FindOpportunities(w.settlements, w.goods, ProfitThreshold(w.params));
    r := w;
    if |opps| > 0 {
      FoundAreAddressed(w.settlements, w.goods, ProfitThreshold(w.params));
      r := ExecuteTrades(w, opps);
    }
  }

  /** The second half of a tick: the market, then upkeep. Prices are left
      alone, wealth only falls, and when there is no opportunity the trade
      logs stay as they were; otherwise they hold what trading the
      opportunities in order recorded. */
  method TradeAndUpkeep(w: World) returns (r: World)
    ensures r == w.(settlements := r.settlements, recentTrades := r.recentTrades, executed := r.executed)
    ensures FindOpportunities(w.settlements, w.goods, ProfitThreshold(w.params)) == [] ==>
      r.recentTrades == w.recentTrades && r.executed == w.executed
    ensures var opps := FindOpportunities(w.settlements, w.goods, ProfitThreshold(w.params));
      opps != [] ==>
        && Addressed(|w.settlements|, opps)
        && r.executed == Trades(w.settlements, opps, 0, w.tick, Times(MaxTrades(w.params))).records
        && r.recentTrades == Recent(r.executed, w.recentTrades)
    ensures r.executed == w.executed ||
      (|r.executed| <= Times(MaxTrades(w.params)) && forall i :: 0 <= i < |r.executed| ==> r.executed[i].tick == w.tick)
    ensures |r.settlements| == |w.settlements|
    ensures forall i :: 0 <= i < |w.settlements| ==> r.settlements[i].prices == w.settlements[i].prices
    ensures TotalWealth(r.settlements) <= TotalWealth(w.settlements)
    ensures WorldValid(w) ==> WorldValid(r)
  {
    var traded := Market(w);
    r := traded.(settlements := UpkeepPhase(traded.settlements, StorageCost(w.params)));
  }

  /** `simulation_step`. The tick advances by one and the catalogue and
      parameters stay. With a sane catalogue, validity is kept and the
      world's total wealth never rises: production spends it, trade only
      moves it, upkeep charges it. With distinct good ids every settlement
      ends the tick with every catalogue good priced inside its band. The
      trade details either are the previous tick's, left in place because
      there was no opportunity, or hold at most max_trades_per_tick trades of
      this tick. */
  method Step(w: World, dice: Dice) returns (r: World)
    requires DiceFit(w, dice)
    ensures r.tick == w.tick + 1 && r.goods == w.goods && r.params == w.params
    ensures |r.settlements| == |w.settlements|
    ensures SaneCatalog(w.goods) && WorldValid(w) ==> WorldValid(r)
    ensures SaneCatalog(w.goods) ==> TotalWealth(r.settlements) <= TotalWealth(w.settlements)
    ensures DistinctIds(w.goods) ==> PricedInBand(r.settlements, w.goods, w.params)
    ensures r.executed == w.executed ||
      (|r.executed| <= Times(MaxTrades(w.params)) && forall i :: 0 <= i < |r.executed| ==> r.executed[i].tick == r.tick)
  {
    var ss := Prepared(w, dice);
    r := TradeAndUpkeep(w.(tick := w.tick + 1, settlements := ss));
    if DistinctIds(w.goods) {
      PricedInBandCarries(ss, r.settlements, w.goods, w.params);
    }
  }
}

=== FILE: stock.dfy ===
/** An insertion-ordered dictionary from goods to quantities, the shape of a
    Python dict keyed by good id: a settlement's bulk storage, a recipe's inputs
    and outputs, and the snapshots production takes before it rolls back.
    Lookups find the first entry with the key; with distinct keys there is only one. */
module Stocks {
  import opened Common

  type GoodId = string

  datatype Entry = Entry(good: GoodId, qty: real)

  type Stock = seq<Entry>

  /** `g in d` */
  predicate Has(st: Stock, g: GoodId) {
    |st| > 0 && (st[0].good == g || Has(st[1..], g))
  }

  /** `d.get(g, 0)` */
  function Get(st: Stock, g: GoodId): real {
    if |st| == 0 then 0.0
    else if st[0].good == g then st[0].qty
    else Get(st[1..], g)
  }

  /** `sum(d.values())` */
  function Load(st: Stock): real {
    if |st| == 0 then 0.0 else st[0].qty + Load(st[1..])
  }

  /** Every key occurs once, as in any dict. */
  predicate Distinct(st: Stock) {
    |st| == 0 || (!Has(st[1..], st[0].good) && Distinct(st[1..]))
  }

  predicate NonNegative(st: Stock) {
    |st| == 0 || (st[0].qty >= 0.0 && NonNegative(st[1..]))
  }

  /** A well-formed stock: distinct keys, no negative quantity. */
  predicate WellFormed(st: Stock) {
    Distinct(st) && NonNegative(st)
  }

  /** `d[g] = v`: overwrites g's entry in place, or appends one at the end. */
  function Put(st: Stock, g: GoodId, v: real): (r: Stock)
    ensures forall h :: Get(r, h) == if h == g then v else Get(st, h)
    ensures forall h :: Has(r, h) <==> h == g || Has(st, h)
    ensures Load(r) == Load(st) - Get(st, g) + v
    ensures Distinct(st) ==> Distinct(r)
    ensures NonNegative(st) && v >= 0.0 ==> NonNegative(r)
  {
    if |st| == 0 then [Entry(g, v)]
    else if st[0].good == g then [Entry(g, v)] + st[1..]
    else [st[0]] + Put(st[1..], g, v)
  }

  /** `del d[g]`: removes g's entry and keeps the others in order. */
  function Drop(st: Stock, g: GoodId): (r: Stock)
    ensures forall h :: h != g ==> Get(r, h) == Get(st, h)
    ensures forall h :: Has(r, h) ==> Has(st, h)
    ensures Load(r) == Load(st) - Get(st, g)
    ensures Distinct(st) ==> Distinct(r) && !Has(r, g) && Get(r, g) == 0.0
    ensures NonNegative(st) ==> NonNegative(r)
  {
    if |st| == 0 then []
    else if st[0].good == g then (AbsentIsZero(st[1..], g); st[1..])
    else [st[0]] + Drop(st[1..], g)
  }

  /** A key that is not present reads as zero. */
  lemma {:induction false} AbsentIsZero(st: Stock, g: GoodId)
    ensures !Has(st, g) ==> Get(st, g) == 0.0
  {
    if |st| > 0 && st[0].good != g {
      AbsentIsZero(st[1..], g);
    }
  }

  /** No quantity in a non-negative stock is negative, and none exceeds the total. */
  lemma {:induction false} GetWithinLoad(st: Stock, g: GoodId)
    ensures NonNegative(st) ==> 0.0 <= Get(st, g) <= Load(st)
  {
    if |st| > 0 {
      GetWithinLoad(st[1..], g);
      LoadNonNegative(st[1..]);
    }
  }

  lemma {:induction false} LoadNonNegative(st: Stock)
    ensures NonNegative(st) ==> 0.0 <= Load(st)
  {
    if |st| > 0 {
      LoadNonNegative(st[1..]);
    }
  }
}

=== FILE: world.dfy ===
/** The world the tick function advances (`World`): the catalogue, the
    settlements in their insertion order, the parameters, and the two trade
    logs the engine keeps. */
module WorldState {
  import opened Common
  import opened Goods
  import opened Config
  import opened Settlements

  /** One line of the recent-trades log: `"T{tick}: {seller} -> {buyer},
      {qty:.2f} {good} @ {price:.2f}"`. */
  datatype TradeLine = TradeLine(tick: int, seller: string, buyer: string, qty: real, good: string, price: real)

  /** One entry of `executed_trade_details_this_tick`. */
  datatype TradeRecord = TradeRecord(
    sellerId: string,
    buyerId: string,
    sellerName: string,
    buyerName: string,
    goodId: string,
    goodName: string,
    qty: real,
    sellerPrice: real,
    buyerPrice: real,
    profit: real,
    tick: int)

  datatype World = World(
    tick: int,
    goods: seq<Good>,
    settlements: seq<Settlement>,
    params: Params,
    recentTrades: seq<TradeLine>,
    executed: seq<TradeRecord>)

  predicate AllValid(ss: seq<Settlement>) {
    forall i :: 0 <= i < |ss| ==> Valid(ss[i])
  }

  /** Every settlement valid, and both trade logs within their bounds. */
  predicate WorldValid(w: World) {
    && AllValid(w.settlements)
    && |w.recentTrades| <= LogLimit
    && |w.executed| <= Times(MaxTrades(w.params))
  }

  /** The wealth of all settlements together. */
  function TotalWealth(ss: seq<Settlement>): real {
    if |ss| == 0 then 0.0 else ss[0].wealth + TotalWealth(ss[1..])
  }

  /** Replacing one settlement changes the total by the change in its wealth. */
  lemma {:induction false} TotalWealthUpdate(ss: seq<Settlement>, i: nat, t: Settlement)
    requires i < |ss|
    ensures TotalWealth(ss[i := t]) == TotalWealth(ss) - ss[i].wealth + t.wealth
    decreases |ss|
  {
    if i == 0 {
      assert ss[i := t][1..] == ss[1..];
    } else {
      TotalWealthUpdate(ss[1..], i - 1, t);
      assert ss[i := t][1..] == ss[1..][i - 1 := t];
    }
  }

  /** When no settlement gains wealth, neither does the world. */
  lemma {:induction false} TotalWealthMonotone(a: seq<Settlement>, b: seq<Settlement>)
    requires |a| == |b|
    requires forall i :: 0 <= i < |a| ==> a[i].wealth <= b[i].wealth
    ensures TotalWealth(a) <= TotalWealth(b)
    decreases |a|
  {
    if |a| > 0 {
      assert a[0].wealth <= b[0].wealth;
      TotalWealthMonotone(a[1..], b[1..]);
    }
  }
}
